=== FILE: README.md ===
# JSON data store: reader and simple writer, in Dafny

This project models the two sequential components of the Platform for
Situated Intelligence (psi) JSON data store, and proves properties about them:

- **`JsonStoreReader`** reads a store and replays it. A store is a catalog of
  streams plus one data file. The data file is a JSON array of
  `{"Envelope": …, "Data": …}` records.
  - The reader keeps a list of enabled stream ids and a replay descriptor (a
    time window plus the choice between `Time` and `OriginatingTime`).
  - It keeps a forward-only position in the data file.
  - `Seek` scans to the first record after the window's left bound.
  - `MoveNext` advances to the next record in the window whose stream is
    enabled. As it goes, it closes the stream of every record past the
    window's right bound.
  - `Read` hands back the payload cached by the last `MoveNext` and reads the
    next envelope.
- **`JsonSimpleWriter`** writes a store.
  - It checks the arguments of store and stream creation.
  - It keeps one lazy producer per stream id.
  - `WriteAll` interleaves the producers round-robin: each pass pulls one
    message from every live producer and retires those that report
    exhaustion.

Both components are pure state machines here, built from immutable
datatypes and functions.

- Exceptions become `Failure` values of `Wrappers.Result`.
- A null argument is `None` of `Wrappers.Option`.
- Times are .NET `DateTime` ticks.
- Payloads are opaque `Token`s.

Modules, one per concern:

| file | module | models |
|---|---|---|
| `time.dfy` | `Time` | ticks and `TimeInterval` (`PointIsWithin`, `Coverage`, `Empty`) |
| `store_types.dfy` | `StoreTypes` | envelopes, stream metadata, replay descriptors, exceptions |
| `catalog.dfy` | `Catalog` | catalog lookups and the coverage fold of the reader's constructor |
| `enabled_streams.dfy` | `EnabledStreams` | the `List<int>` of enabled ids: guarded `Add` and `Remove` |
| `store_reader.dfy` | `StoreReader` | the reader's state and every public operation |
| `replay.dfy` | `Replay` | the `Seek`, then `MoveNext`/`Read` consumer loop, against a declarative replay |
| `interleave.dfy` | `Interleave` | the round-robin of `WriteAll`, over `seq<seq<T>>` |
| `simple_writer.dfy` | `SimpleWriter` | `CreateStore`, `CreateStream`, `WriteAll` |
| `round_trip.dfy` | `RoundTrip` | writing with the simple writer, then replaying what was written |

## How the data file is modelled

The data file is a sequence of `Item`s, one per record:

- `Record(envelope, data)`: a well-formed record.
- `DataMalformed(envelope)`: the envelope parses, but no `Data` property
  follows.
- `EnvelopeMalformed`: the first field is not an `Envelope`.

The position of the JSON token reader becomes a `Cursor`:

- `Unopened`: before any `Seek`. There is no JSON reader yet.
- `AtData(i)`: the envelope of record `i` is read, and the reader sits on
  its `Data`.
- `Between(i)`: records before `i` are read completely.
- `Lost(i)`: the reader stopped inside record `i` at a token that the record
  framing does not expect.
- `AtEnd`: the end of the array.

`StoreReader.Valid` is the invariant every operation preserves.
`StoreReader.Pending` measures the work left. It makes `MoveNext`'s loop and
the replay loop terminate.

Behaviour of the code that the model keeps:

- `Seek` stops only on a time strictly greater than the window's left bound.
  The window check of `MoveNext` is inclusive. So a record exactly at the left
  bound is skipped when it opens the file, but delivered when it comes later
  (`Replay.RecordAtLeftIsSkippedBySeek`, `RoundTrip.RecordAtLeftDeliveredAfterFirst`,
  `RoundTrip.RecordAtLeftDroppedFirst`).
- `MoveNext` gives up as soon as the enabled list is empty. It still consumes
  the record it was on (`Replay.NoStreamEnabledConsumesOneRecord`).
- When `Seek` runs off the end of the file, it leaves the cached
  `hasMoreData` as it was. If `Seek` stepped over at least one record, the
  flag is true, so a `MoveNext` then fails to read a payload and answers
  false. On an empty file after a fresh `Open`, the flag is still false, so
  `MoveNext` answers false at once without reading anything.
- An unknown stream id in an envelope is an `InvalidDataException` wherever
  an envelope is read: in `Seek`, `MoveNext` and `Read`.
- `Seek` throws on a record whose envelope it cannot read or whose stream
  the catalog lacks, and on a malformed record it has to step over. It does
  not throw on a record whose `Data` is malformed if the record's time is
  after the left bound: it stops there before reading the `Data`. Met by
  `MoveNext` or `Read`, a malformed record only makes them answer false.
- The writer never consults `WriteAll`'s replay descriptor or cancellation
  token (`SimpleWriter.WriteAllIgnoresDescriptorAndToken`).

Consequences of the code that a reader of the store might not expect:

- `WriteAll` never reads its cancellation token. Every source is written
  to exhaustion whatever the token says.
- A write-then-replay over all time does not always give back what was
  written. A first record at tick 0, the left bound of `ReplayAll`, is
  skipped by `Seek`. `RoundTrip.WriteThenReplay` therefore requires the
  first record written to lie strictly after the left bound. Later records
  may sit at the left bound, since the `MoveNext` window is inclusive.
- The first record `MoveNext` returns after `Seek` need not be strictly
  after the left bound. Records are not time-sorted, so a later record
  exactly at the left bound can be the first one returned.
- A record with its fields in the wrong order makes only `Seek` throw.
  `MoveNext` and `Read` answer false on it.

## Model

All source paths are under `Sources/Extensions/Microsoft.Psi.Extensions/Data/`.

| member | source | states |
|---|---|---|
| Time.Coverage | Sources/Extensions/Microsoft.Psi.Extensions/Data/JsonStoreReader.cs:62 | the coverage of two intervals contains both, and each of its bounds is a bound of one operand |
| Time.CoverageIdentity | Sources/Extensions/Microsoft.Psi.Extensions/Data/JsonStoreReader.cs:58-62 | `Empty` is the identity of `Coverage` on both sides, which the fold starting from `Empty` relies on |
| Time.EmptyHoldsNoPoint | Sources/Extensions/Microsoft.Psi.Extensions/Data/JsonStoreReader.cs:58 | `TimeInterval.Empty` contains no point |
| Time.CoverageKeepsPoints | Sources/Extensions/Microsoft.Psi.Extensions/Data/JsonStoreReader.cs:62 | a point inside either operand is inside their coverage under the inclusive `PointIsWithin` |
| Catalog.OriginatingTimeInterval | Sources/Extensions/Microsoft.Psi.Extensions/Data/JsonStoreReader.cs:57-63 | the coverage fold from `Empty`: an empty catalog yields `Empty`; every entry's first-to-last span lies within the result; each bound of the result is some entry's first or last time |
| Catalog.GetMetadataByName | Sources/Extensions/Microsoft.Psi.Extensions/Data/JsonStoreReader.cs:142-156 | `ArgumentNullException` exactly for a null or blank name; `ArgumentException` exactly for a non-blank name no entry has; otherwise the first entry with that name |
| Catalog.GetMetadataById | Sources/Extensions/Microsoft.Psi.Extensions/Data/JsonStoreReader.cs:163-172 | `ArgumentException` exactly when no entry has the id; otherwise the first entry with that id |
| Catalog.Contains | Sources/Extensions/Microsoft.Psi.Extensions/Data/JsonStoreReader.cs:118-126 | `ArgumentNullException` exactly for a null or blank name; otherwise true exactly when some entry has that name |
| Catalog.ContainsAgreesWithGetMetadata | Sources/Extensions/Microsoft.Psi.Extensions/Data/JsonStoreReader.cs:118-156 | `Contains(name)` is true exactly when `GetMetadata(name)` succeeds, and both reject the same names |
| EnabledStreams.Enable | Sources/Extensions/Microsoft.Psi.Extensions/Data/JsonStoreReader.cs:210-215 | the id ends up in the list; a present id leaves the list unchanged; an absent one is appended; the list stays duplicate-free |
| EnabledStreams.RemoveFirst | Sources/Extensions/Microsoft.Psi.Extensions/Data/JsonStoreReader.cs:102 | an absent id leaves the list unchanged; otherwise it is one shorter; no id is added and every other id stays; a duplicate-free list stays duplicate-free and loses the id |
| StoreReader.Open | Sources/Extensions/Microsoft.Psi.Extensions/Data/JsonStoreReader.cs:40-63 | a new reader is valid, has no stream enabled and no open data file, and holds the catalog's coverage |
| StoreReader.OpenStream | Sources/Extensions/Microsoft.Psi.Extensions/Data/JsonStoreReader.cs:203-217 | null metadata is an `ArgumentNullException`; an enabled id answers false and changes nothing; otherwise the id is appended, nothing else changes, and the answer is true |
| StoreReader.OpenStreamByName | Sources/Extensions/Microsoft.Psi.Extensions/Data/JsonStoreReader.cs:179-184 | fails exactly as the lookup by name does; otherwise returns that entry with its id enabled and nothing else changed |
| StoreReader.OpenStreamById | Sources/Extensions/Microsoft.Psi.Extensions/Data/JsonStoreReader.cs:191-196 | fails exactly when the id is not in the catalog; otherwise returns that entry with the id enabled and nothing else changed |
| StoreReader.CloseStream | Sources/Extensions/Microsoft.Psi.Extensions/Data/JsonStoreReader.cs:100-103 | an id not enabled changes nothing; otherwise the id is removed, every other id keeps its status and nothing else changes |
| StoreReader.CloseStreamByName | Sources/Extensions/Microsoft.Psi.Extensions/Data/JsonStoreReader.cs:90-94 | fails exactly as the lookup by name does; otherwise closes that entry's id and nothing else |
| StoreReader.CloseAllStreams | Sources/Extensions/Microsoft.Psi.Extensions/Data/JsonStoreReader.cs:108-111 | the enabled list is empty and nothing else changes |
| StoreReader.ReadData | Sources/Extensions/Microsoft.Psi.Extensions/Data/JsonStoreReader.cs:322-328 | succeeds exactly on the `Data` of a well-formed record, caching that record's payload and moving past it; otherwise the cache is cleared and the position kept |
| StoreReader.NextEnvelopeReads | Sources/Extensions/Microsoft.Psi.Extensions/Data/JsonStoreReader.cs:330-345 | the envelope step fails before any `Seek` (null reader) or on an envelope whose id the catalog lacks; it finds more data exactly when a record's envelope follows, then stands on that record's data; a malformed envelope resets the envelope to its default |
| StoreReader.SeekFrom | Sources/Extensions/Microsoft.Psi.Extensions/Data/JsonStoreReader.cs:296-319 | the scan stops on a record strictly after the left bound, or at the end, having stepped only over well-formed catalog records at or before the bound; it fails only at the first faulty record, every record before which was skippable |
| StoreReader.Seek | Sources/Extensions/Microsoft.Psi.Extensions/Data/JsonStoreReader.cs:283-320 | installs the descriptor and data file; lands on the first record strictly after the left bound, with its envelope, or consumes the whole file when there is none; every record before is skippable; a faulty record before that point is an `InvalidDataException` |
| StoreReader.MoveNext | Sources/Extensions/Microsoft.Psi.Extensions/Data/JsonStoreReader.cs:224-262 | never enables a stream; true only for a record in the window whose stream is enabled, with that record's envelope and payload; false only when data runs out or no stream is enabled; always reduces the pending work when it answers true |
| StoreReader.MoveNextSkips | Sources/Extensions/Microsoft.Psi.Extensions/Data/JsonStoreReader.cs:226-259 | `MoveNext` stops on the first record that passes the filter: every record it steps over is well-formed and fails the filter under the enabled list in force when it is read, which is the starting list less the auto-closes of the records stepped over before it; the call ends with the auto-closes of all stepped-over records applied; it reads a further record only while the list in force is non-empty, so it gives up right after an auto-close empties the list |
| StoreReader.MoveNextClosesOnlyPastWindow | Sources/Extensions/Microsoft.Psi.Extensions/Data/JsonStoreReader.cs:248-252 | a stream closed during `MoveNext` is the stream of a record stepped over past the window's right bound |
| StoreReader.Advance | Sources/Extensions/Microsoft.Psi.Extensions/Data/JsonStoreReader.cs:237-257 | past a record that fails the filter: its payload is read, its stream closed exactly when it lies past the window's right bound, and the next envelope read; this fails only on an unknown stream id, and always lowers the pending work |
| StoreReader.MoveNextStopsAt | Sources/Extensions/Microsoft.Psi.Extensions/Data/JsonStoreReader.cs:237-247 | on a record that passes the filter, `MoveNext` answers true with that record's envelope and payload and stands just past it; on a record whose `Data` is malformed, it answers false and stands on that record; neither changes the enabled list |
| StoreReader.MoveNextFalseOnlyAtEndOrMalformed | Sources/Extensions/Microsoft.Psi.Extensions/Data/JsonStoreReader.cs:229-259 | when `MoveNext` answers false, either no stream is enabled any more, or it stands at the end of the file, or the item it stands on is not a well-formed record; so with streams enabled it never gives up ahead of a readable record |
| StoreReader.Read | Sources/Extensions/Microsoft.Psi.Extensions/Data/JsonStoreReader.cs:269-277 | returns the payload cached before the call; answers true exactly when a record's envelope follows, and then stands on it; fails before any `Seek` or on an unknown stream id |
| Replay.Drain | Sources/Extensions/Microsoft.Psi.Extensions/Data/JsonStoreReader.cs:224-277 | every message the `MoveNext`/`Read` loop delivers is a record of the file, in the window, of a stream enabled at the start; it fails only with `InvalidDataException` |
| Replay.DrainIsReplayed | Sources/Extensions/Microsoft.Psi.Extensions/Data/JsonStoreReader.cs:224-277 | on a file of well-formed catalog records, the loop delivers exactly the declarative replay: records in the window of enabled streams, with a stream closed by its first record past the window |
| Replay.DrainDelivers | Sources/Extensions/Microsoft.Psi.Extensions/Data/JsonStoreReader.cs:243-247 | a record that passes the filter is delivered with its own payload, and the loop goes on from the next record with the same streams enabled |
| Replay.DrainPassesOver | Sources/Extensions/Microsoft.Psi.Extensions/Data/JsonStoreReader.cs:248-259 | a record that fails the filter is passed over, its stream closed when it lies past the window, and the loop goes on from the next record |
| Replay.SeekThenDrain | Sources/Extensions/Microsoft.Psi.Extensions/Data/JsonStoreReader.cs:283-320 | on such a file `Seek` cannot fail; it skips exactly the leading records at or before the left bound; the loop then delivers the replay of the rest |
| Replay.ClosedStreamIsNotReplayed | Sources/Extensions/Microsoft.Psi.Extensions/Data/JsonStoreReader.cs:248-252 | after a record past the window's right bound, nothing more of its stream is delivered |
| Replay.ReplayedFromEnabled | Sources/Extensions/Microsoft.Psi.Extensions/Data/JsonStoreReader.cs:243 | only enabled streams are ever delivered |
| Replay.NothingEnabledReplaysNothing | Sources/Extensions/Microsoft.Psi.Extensions/Data/JsonStoreReader.cs:259 | with no stream enabled nothing is delivered |
| Replay.DrainExhausted | Sources/Extensions/Microsoft.Psi.Extensions/Data/JsonStoreReader.cs:229-232 | once `hasMoreData` is false the loop delivers nothing |
| Replay.RecordAtLeftIsSkippedBySeek | Sources/Extensions/Microsoft.Psi.Extensions/Data/JsonStoreReader.cs:307 | a record exactly at the left bound is in the inclusive window, yet when it opens the file it is never delivered |
| Replay.NoStreamEnabledConsumesOneRecord | Sources/Extensions/Microsoft.Psi.Extensions/Data/JsonStoreReader.cs:255-261 | with no stream enabled, `MoveNext` consumes the current record and answers false, standing one record further on, whatever the rest of the file holds, provided the next envelope names a catalog stream |
| Replay.MoveNextThenRead | Sources/Extensions/Microsoft.Psi.Extensions/Data/JsonStoreReader.cs:269-277 | after a true `MoveNext`, `Read` succeeds unless the next envelope names an unknown stream; it returns the payload of the record `MoveNext` found and stands on the next envelope |
| Interleave.RoundRobin | Sources/Extensions/Microsoft.Psi.Extensions/Data/JsonSimpleWriter.cs:121-142 | the round-robin terminates for finite producers (each pass retires or advances every producer), and writes as many messages as the producers hold |
| Interleave.PassShrinks | Sources/Extensions/Microsoft.Psi.Extensions/Data/JsonSimpleWriter.cs:123-139 | one pass lowers messages-plus-producers by the number of producers visited; what it writes plus what remains is what there was |
| Interleave.RoundRobinWritesEachMessageOnce | Sources/Extensions/Microsoft.Psi.Extensions/Data/JsonSimpleWriter.cs:123-134 | the output is a permutation of all producers' messages taken together |
| Interleave.RoundRobinIsRoundByRound | Sources/Extensions/Microsoft.Psi.Extensions/Data/JsonSimpleWriter.cs:120-134 | the output is the reference schedule: pass `p` writes the `p`-th message of each producer that has one, in list order |
| Interleave.PassCount | Sources/Extensions/Microsoft.Psi.Extensions/Data/JsonSimpleWriter.cs:121-142 | the loop runs one pass more than the longest producer has messages, none with no producers |
| Interleave.RoundRobinKeepsProducerOrder | Sources/Extensions/Microsoft.Psi.Extensions/Data/JsonSimpleWriter.cs:123-129 | restricted to the messages of one producer, the output is that producer's sequence |
| Interleave.RoundRobinCommutesWithMap | Sources/Extensions/Microsoft.Psi.Extensions/Data/JsonSimpleWriter.cs:123-129 | relabelling messages before or after the interleave gives the same output |
| SimpleWriter.New | Sources/Extensions/Microsoft.Psi.Extensions/Data/JsonSimpleWriter.cs:44-49 | the constructor without a store name leaves the writer with no store, so `Name` and `Path` are null, and with no producer |
| SimpleWriter.NewStore | Sources/Extensions/Microsoft.Psi.Extensions/Data/JsonSimpleWriter.cs:32-36 | the constructor with a store name creates the store at once: a store of that name, path and subdirectory choice, with no stream and no record, and no producer |
| SimpleWriter.CreateStore | Sources/Extensions/Microsoft.Psi.Extensions/Data/JsonSimpleWriter.cs:63-71 | fails with `ArgumentException` exactly when serializers are given; otherwise installs a fresh empty store of that name and path, keeping the producers |
| SimpleWriter.CreateStream | Sources/Extensions/Microsoft.Psi.Extensions/Data/JsonSimpleWriter.cs:74-108 | null metadata, non-JSON metadata and a null source fail in that order; with no store, opening the stream fails; otherwise the stream is opened and its producer keyed by its id, leaving every other producer alone |
| SimpleWriter.CreateStreamTwiceReplaces | Sources/Extensions/Microsoft.Psi.Extensions/Data/JsonSimpleWriter.cs:91-93 | registering the same id again replaces the earlier producer, adding no second one |
| SimpleWriter.WriteAll | Sources/Extensions/Microsoft.Psi.Extensions/Data/JsonSimpleWriter.cs:117-143 | appends to the store a permutation of every registered message, exactly once, and leaves every producer exhausted; fails only without a store and with something to write |
| SimpleWriter.WriteAllIgnoresDescriptorAndToken | Sources/Extensions/Microsoft.Psi.Extensions/Data/JsonSimpleWriter.cs:117 | the result does not depend on the replay descriptor or the cancellation token |
| SimpleWriter.WriteAllRounds | Sources/Extensions/Microsoft.Psi.Extensions/Data/JsonSimpleWriter.cs:120-142 | what is written is the round-by-round schedule, over one pass more than the longest source has messages |
| SimpleWriter.WriteAllKeepsStreamOrder | Sources/Extensions/Microsoft.Psi.Extensions/Data/JsonSimpleWriter.cs:93-129 | the written messages, labelled with their stream, restricted to one stream, are that stream's source in enumeration order |
| SimpleWriter.WriteAllTwiceWritesNothingMore | Sources/Extensions/Microsoft.Psi.Extensions/Data/JsonSimpleWriter.cs:93-107 | after `WriteAll` every enumerator is exhausted, so a second `WriteAll` writes nothing |
| RoundTrip.ReplayReturnsStoredMessages | Sources/Extensions/Microsoft.Psi.Extensions/Data/JsonStoreReader.cs:283-320 | records that are all deliverable, the first strictly after the left bound, are replayed back exactly and in order |
| RoundTrip.RecordAtLeftDeliveredAfterFirst | Sources/Extensions/Microsoft.Psi.Extensions/Data/JsonStoreReader.cs:243 | a record exactly at the left bound is delivered when it follows a record inside the window, because the `MoveNext` window is inclusive |
| RoundTrip.RecordAtLeftDroppedFirst | Sources/Extensions/Microsoft.Psi.Extensions/Data/JsonStoreReader.cs:307 | the same two records in the other order: `Seek` steps over the one at the left bound and only the other is delivered |
| RoundTrip.WriteThenReplay | Sources/Extensions/Microsoft.Psi.Extensions/Data/JsonSimpleWriter.cs:117-143 | when every source message is deliverable and the first record written lies strictly after the left bound, replaying what `WriteAll` wrote gives back the written sequence, which holds every source message exactly once |

## Left out

- The constructors' file handling: `StoreCommon` path and version resolution, opening the catalog and data files, and `Dispose`. These are I/O. A reader is built from an already loaded catalog (`StoreReader.Open`), and `Seek` receives the data file's content as a parameter.
- JSON Schema validation of the catalog and data files. Catalog validation happens before `StoreReader.Open`; a schema violation in the data file is not distinguished from a malformed record.
- Newtonsoft token-level reading, `Serializer.Deserialize` and `JToken.FromObject`. These are foreign library calls. Records are parsed-or-malformed `Item`s, and payloads are opaque `Token`s.
- Token-level positions that the record framing does not expect. These are abstracted as the `Lost` cursor, from which every later read answers false. The code does not stay lost: each further direct `Read` steps the JSON reader forward until it meets an opening brace followed by an `Envelope`, so enough `Read` calls pick up a later record (after a record with its fields reversed, for instance). When a record's `Data` property is missing altogether, the reader is left on the record's closing brace and the very next `Read` picks up the next record. The model does not follow this resynchronisation. One case is `Read` called while a record's data is still unread: it is modelled as losing the position with the envelope reset, although the exact tokens consumed depend on the payload's shape.
- The reader's state after an exception. An operation that throws returns `Failure` and no new state.
- `JsonStoreWriter` is not part of this model. Its `OpenStream` is modelled as recording the metadata and returning it unchanged, and `Write` as appending the message to the store's record sequence.
- `Dictionary.Values` enumeration order. `WriteAll` takes the order of the producer ids as a parameter, a duplicate-free listing of the registered ids, and every property holds for every such order.
- Infinite sources. A source is the finite sequence its enumerator yields, so `WriteAll` termination is shown for finite sources only.
- `TimeInterval` is not part of this model. Three of its behaviours are assumed: `PointIsWithin` includes both bounds, `Coverage` takes the minimum of the left bounds and the maximum of the right bounds, and `Empty` is the inverted interval (maximum tick, minimum tick), which contains no point and is the identity of `Coverage`.
- The `Name`, `Path`, `AvailableStreams` and `OriginatingTimeInterval` property getters. They return fields unchanged.
- `SimpleSemaphore`, `IAudioEndpointVolume` and `AssemblyInfo`, which are in the same repository but outside this core. They cover concurrency, COM interop and assembly attributes.
- Catalog entries with duplicate ids or names. The catalog is whatever sequence was loaded, and lookups return the first match, as `FirstOrDefault` does.

=== FILE: catalog.dfy ===
/** The store reader's catalog: lookups by name and by id, the name guard
    shared by the lookups, and the originating-time coverage computed when
    the reader is constructed. */
module Catalog {
  import opened Wrappers
  import opened Time
  import opened StoreTypes

  /** `char.IsWhiteSpace`: the Unicode space, line and paragraph separators
      together with U+0009..U+000D and U+0085. */
  predicate IsWhiteSpace(c: char) {
    || c == ' '
    || ('\t' <= c <= '\r')
    || c == '\U{0085}'
    || c == '\U{00A0}'
    || c == '\U{1680}'
    || ('\U{2000}' <= c <= '\U{200A}')
    || c == '\U{2028}'
    || c == '\U{2029}'
    || c == '\U{202F}'
    || c == '\U{205F}'
    || c == '\U{3000}'
  }

  /** `string.IsNullOrWhiteSpace`; `None` is a null string. */
  predicate IsNullOrWhiteSpace(s: Option<string>) {
    s.None? || forall i :: 0 <= i < |s.value| ==> IsWhiteSpace(s.value[i])
  }

  predicate HasName(catalog: seq<StreamMetadata>, name: string) {
    exists i :: 0 <= i < |catalog| && catalog[i].name == name
  }

  predicate HasId(catalog: seq<StreamMetadata>, id: int) {
    exists i :: 0 <= i < |catalog| && catalog[i].id == id
  }

  /** `catalog.FirstOrDefault(m => m.Name == name)`. */
  function FirstNamed(catalog: seq<StreamMetadata>, name: string): (r: Option<StreamMetadata>)
    ensures r.None? <==> !HasName(catalog, name)
    ensures r.Some? ==> exists i :: 0 <= i < |catalog| && catalog[i] == r.value
                                    && r.value.name == name
                                    && forall j :: 0 <= j < i ==> catalog[j].name != name
  {
    if |catalog| == 0 then None
    else if catalog[0].name == name then Some(catalog[0])
    else
      var r := FirstNamed(catalog[1..], name);
      assert HasName(catalog, name) <==> HasName(catalog[1..], name) by {
        if HasName(catalog, name) {
          var i :| 0 <= i < |catalog| && catalog[i].name == name;
          assert catalog[1..][i - 1].name == name;
        }
        if HasName(catalog[1..], name) {
          var i :| 0 <= i < |catalog[1..]| && catalog[1..][i].name == name;
          assert catalog[i + 1].name == name;
        }
      }
      if r.Some? then
        var i :| 0 <= i < |catalog[1..]| && catalog[1..][i] == r.value
                 && r.value.name == name && forall j :: 0 <= j < i ==> catalog[1..][j].name != name;
        assert catalog[i + 1] == r.value;
        assert forall j :: 0 <= j < i + 1 ==> catalog[j].name != name by {
          forall j | 0 <= j < i + 1
            ensures catalog[j].name != name
          {
            if j > 0 { assert catalog[j] == catalog[1..][j - 1]; }
          }
        }
        r
      else r
  }

  /** `catalog.FirstOrDefault(m => m.Id == id)`. */
  function FirstWithId(catalog: seq<StreamMetadata>, id: int): (r: Option<StreamMetadata>)
    ensures r.None? <==> !HasId(catalog, id)
    ensures r.Some? ==> exists i :: 0 <= i < |catalog| && catalog[i] == r.value
                                    && r.value.id == id
                                    && forall j :: 0 <= j < i ==> catalog[j].id != id
  {
    if |catalog| == 0 then None
    else if catalog[0].id == id then Some(catalog[0])
    else
      var r := FirstWithId(catalog[1..], id);
      assert HasId(catalog, id) <==> HasId(catalog[1..], id) by {
        if HasId(catalog, id) {
          var i :| 0 <= i < |catalog| && catalog[i].id == id;
          assert catalog[1..][i - 1].id == id;
        }
        if HasId(catalog[1..], id) {
          var i :| 0 <= i < |catalog[1..]| && catalog[1..][i].id == id;
          assert catalog[i + 1].id == id;
        }
      }
      if r.Some? then
        var i :| 0 <= i < |catalog[1..]| && catalog[1..][i] == r.value
                 && r.value.id == id && forall j :: 0 <= j < i ==> catalog[1..][j].id != id;
        assert catalog[i + 1] == r.value;
        assert forall j :: 0 <= j < i + 1 ==> catalog[j].id != id by {
          forall j | 0 <= j < i + 1
            ensures catalog[j].id != id
          {
            if j > 0 { assert catalog[j] == catalog[1..][j - 1]; }
          }
        }
        r
      else r
  }

  /** `GetMetadata(string streamName)`: a null or blank name is an
      `ArgumentNullException`, an unknown name an `ArgumentException`,
      otherwise the first entry carrying that name. */
  function GetMetadataByName(catalog: seq<StreamMetadata>, streamName: Option<string>): (r: Result<StreamMetadata, Error>)
    ensures r == Failure(ArgumentNull("streamName")) <==> IsNullOrWhiteSpace(streamName)
    ensures r == Failure(Argument("streamName")) <==>
              !IsNullOrWhiteSpace(streamName) && !HasName(catalog, streamName.value)
    ensures r.Failure? ==> r.error in {ArgumentNull("streamName"), Argument("streamName")}
    ensures r.Success? ==> exists i :: 0 <= i < |catalog| && catalog[i] == r.value
                                       && r.value.name == streamName.value
                                       && forall j :: 0 <= j < i ==> catalog[j].name != streamName.value
  {
    if IsNullOrWhiteSpace(streamName) then Failure(ArgumentNull("streamName"))
    else match FirstNamed(catalog, streamName.value)
      case None => Failure(Argument("streamName"))
      case Some(m) => Success(m)
  }

  /** `GetMetadata(int id)`: an unknown id is an `ArgumentException`,
      otherwise the first entry carrying that id. */
  function GetMetadataById(catalog: seq<StreamMetadata>, id: int): (r: Result<StreamMetadata, Error>)
    ensures r.Failure? <==> !HasId(catalog, id)
    ensures r.Failure? ==> r.error == Argument("id")
    ensures r.Success? ==> exists i :: 0 <= i < |catalog| && catalog[i] == r.value
                                       && r.value.id == id
                                       && forall j :: 0 <= j < i ==> catalog[j].id != id
  {
    match FirstWithId(catalog, id)
    case None => Failure(Argument("id"))
    case Some(m) => Success(m)
  }

  /** `Contains(string streamName)`: the same name guard as the lookup, then
      whether some entry carries that name. */
  function Contains(catalog: seq<StreamMetadata>, streamName: Option<string>): (r: Result<bool, Error>)
    ensures r.Failure? <==> IsNullOrWhiteSpace(streamName)
    ensures r.Failure? ==> r.error == ArgumentNull("streamName")
    ensures r.Success? ==> (r.value <==> HasName(catalog, streamName.value))
  {
    if IsNullOrWhiteSpace(streamName) then Failure(ArgumentNull("streamName"))
    else Success(FirstNamed(catalog, streamName.value).Some?)
  }

  /** `Contains(name)` answers true exactly when `GetMetadata(name)` returns
      an entry, and both reject the same names. */
  lemma ContainsAgreesWithGetMetadata(catalog: seq<StreamMetadata>, streamName: Option<string>)
    ensures Contains(catalog, streamName) == Success(true) <==> GetMetadataByName(catalog, streamName).Success?
    ensures Contains(catalog, streamName).Failure? <==>
              GetMetadataByName(catalog, streamName) == Failure(ArgumentNull("streamName"))
  {
  }

  /** The reader's `OriginatingTimeInterval`: starting from `Empty`, the
      coverage of the running interval and each entry's span, in catalog order. */
  function OriginatingTimeInterval(catalog: seq<StreamMetadata>): (r: TimeInterval)
    ensures |catalog| == 0 ==> r == Empty
    ensures forall i :: 0 <= i < |catalog| ==> Within(Span(catalog[i]), r)
    ensures |catalog| > 0 ==> exists i :: 0 <= i < |catalog| && r.left == catalog[i].firstMessageOriginatingTime
    ensures |catalog| > 0 ==> exists i :: 0 <= i < |catalog| && r.right == catalog[i].lastMessageOriginatingTime
    decreases |catalog|
  {
    if |catalog| == 0 then Empty
    else
      var prefix := catalog[..|catalog| - 1];
      var last := catalog[|catalog| - 1];
      var acc := OriginatingTimeInterval(prefix);
      var r := Coverage(acc, Span(last));
      assert forall i :: 0 <= i < |catalog| ==> Within(Span(catalog[i]), r) by {
        forall i | 0 <= i < |catalog|
          ensures Within(Span(catalog[i]), r)
        {
          if i < |catalog| - 1 { assert catalog[i] == prefix[i]; }
        }
      }
      if |prefix| == 0 then
        CoverageIdentity(Span(last));
        r
      else
        var a :| 0 <= a < |prefix| && acc.left == prefix[a].firstMessageOriginatingTime;
        var b :| 0 <= b < |prefix| && acc.right == prefix[b].lastMessageOriginatingTime;
        assert catalog[a] == prefix[a] && catalog[b] == prefix[b];
        r
  }
}

=== FILE: enabled_streams.dfy ===
/** The reader's list of enabled stream ids (a `List<int>`), with the two
    list operations the reader applies to it. */
module EnabledStreams {

  /** No id occurs twice in the list. */
  predicate NoDuplicates(s: seq<int>) {
    forall i, j :: 0 <= i < j < |s| ==> s[i] != s[j]
  }

  /** `List.Add` guarded by `List.Contains`, as `OpenStream` does: an id
      already present leaves the list as it is. */
  function Enable(s: seq<int>, id: int): (r: seq<int>)
    ensures id in r
    ensures id in s ==> r == s
    ensures id !in s ==> |r| == |s| + 1 && r[..|s|] == s && r[|s|] == id
    ensures NoDuplicates(s) ==> NoDuplicates(r)
  {
    if id in s then s else s + [id]
  }

  /** `List.Remove`: drops the first occurrence of `id`, if any, and keeps
      the order of the remaining ids. */
  function RemoveFirst(s: seq<int>, id: int): (r: seq<int>)
    ensures id !in s ==> r == s
    ensures id in s ==> |r| == |s| - 1
    ensures forall x :: x in r ==> x in s
    ensures forall x :: x in s && x != id ==> x in r
    ensures NoDuplicates(s) ==> NoDuplicates(r) && id !in r
  {
    if |s| == 0 then []
    else if s[0] == id then
      assert forall k :: 0 <= k < |s[1..]| ==> s[1..][k] == s[k + 1];
      s[1..]
    else
      var rest := RemoveFirst(s[1..], id);
      assert forall x :: x in s && x != s[0] ==> x in s[1..] by {
        forall x | x in s && x != s[0]
          ensures x in s[1..]
        {
          var k :| 0 <= k < |s| && s[k] == x;
          assert s[1..][k - 1] == x;
        }
      }
      assert forall k :: 0 <= k < |s[1..]| ==> s[1..][k] == s[k + 1];
      var r := [s[0]] + rest;
      assert forall k :: 0 < k < |r| ==> r[k] == rest[k - 1];
      assert NoDuplicates(s) ==> NoDuplicates(r) by {
        if NoDuplicates(s) {
          assert NoDuplicates(s[1..]);
          assert s[0] !in s[1..];
          assert s[0] !in rest;
        }
      }
      r
  }
}

=== FILE: interleave.dfy ===
/** The round-robin interleave at the heart of `JsonSimpleWriter.WriteAll`.

    Each producer is modelled by the finite sequence of messages it will
    still yield. A pass pulls one message from every live producer in list
    order; a producer that has a message writes it and stays live, one that
    reports exhaustion is retired once the pass is over. */
module Interleave {

  /** Every message of every producer, producer after producer. */
  function Flatten<T>(live: seq<seq<T>>): seq<T> {
    if |live| == 0 then [] else live[0] + Flatten(live[1..])
  }

  /** The number of messages the producers still hold. */
  function TotalLength<T>(live: seq<seq<T>>): nat {
    if |live| == 0 then 0 else |live[0]| + TotalLength(live[1..])
  }

  /** The length of the longest producer. */
  function MaxLength<T>(live: seq<seq<T>>): nat {
    if |live| == 0 then 0
    else var m := MaxLength(live[1..]); if |live[0]| > m then |live[0]| else m
  }

  /** What one pass writes: the next message of each producer that has one. */
  function Heads<T>(live: seq<seq<T>>): seq<T> {
    if |live| == 0 then []
    else (if |live[0]| > 0 then [live[0][0]] else []) + Heads(live[1..])
  }

  /** The producers still live after one pass: each one that yielded, moved
      on by one message; those that reported exhaustion are dropped. */
  function Survivors<T>(live: seq<seq<T>>): seq<seq<T>> {
    if |live| == 0 then []
    else (if |live[0]| > 0 then [live[0][1..]] else []) + Survivors(live[1..])
  }

  /** The termination measure of the `while` loop: messages left plus
      producers left. */
  function Measure<T>(live: seq<seq<T>>): nat {
    TotalLength(live) + |live|
  }

  /** A pass lowers the measure by the number of producers it visits: each
      one either gives up a message or is retired. */
  lemma {:induction false} PassShrinks<T>(live: seq<seq<T>>)
    ensures Measure(Survivors(live)) == Measure(live) - |live|
    ensures |Heads(live)| + TotalLength(Survivors(live)) == TotalLength(live)
  {
    if |live| > 0 {
      PassShrinks(live[1..]);
      SurvivorsUnfold(live);
    }
  }

  /** `Survivors` and `Heads` of a non-empty list, one producer at a time. */
  lemma SurvivorsUnfold<T>(live: seq<seq<T>>)
    requires |live| > 0
    ensures |live[0]| > 0 ==> && Survivors(live)[0] == live[0][1..]
                              && Survivors(live)[1..] == Survivors(live[1..])
                              && Heads(live) == [live[0][0]] + Heads(live[1..])
    ensures |live[0]| == 0 ==> Survivors(live) == Survivors(live[1..]) && Heads(live) == Heads(live[1..])
  {
    if |live[0]| > 0 {
      assert Survivors(live) == [live[0][1..]] + Survivors(live[1..]);
    }
  }

  /** `WriteAll`: passes until no producer is left. */
  function RoundRobin<T>(live: seq<seq<T>>): (out: seq<T>)
    ensures |out| == TotalLength(live)
    decreases Measure(live)
  {
    if |live| == 0 then []
    else
      PassShrinks(live);
      Heads(live) + RoundRobin(Survivors(live))
  }

  /** The number of passes `WriteAll` makes. */
  function Passes<T>(live: seq<seq<T>>): nat
    decreases Measure(live)
  {
    if |live| == 0 then 0
    else
      PassShrinks(live);
      1 + Passes(Survivors(live))
  }

  // ---------------------------------------------------------------------
  // Exactly once
  // ---------------------------------------------------------------------

  lemma {:induction false} PassSplits<T>(live: seq<seq<T>>)
    ensures multiset(Flatten(live)) == multiset(Heads(live)) + multiset(Flatten(Survivors(live)))
  {
    if |live| > 0 {
      PassSplits(live[1..]);
      PassSplitsFront(live);
    }
  }

  /** The inductive step of `PassSplits`: the split of the producers after
      the first extends to all of them. */
  lemma PassSplitsFront<T>(live: seq<seq<T>>)
    requires |live| > 0
    requires multiset(Flatten(live[1..])) == multiset(Heads(live[1..])) + multiset(Flatten(Survivors(live[1..])))
    ensures multiset(Flatten(live)) == multiset(Heads(live)) + multiset(Flatten(Survivors(live)))
  {
    var h, t := live[0], live[1..];
    assert Flatten(live) == h + Flatten(t);
    if |h| > 0 {
      SurvivorsFront(live);
      assert h == [h[0]] + h[1..];
      MultisetRegroup(h[0], h[1..], Heads(t), Flatten(t), Flatten(Survivors(t)));
    } else {
      assert Heads(live) == Heads(t) && Survivors(live) == Survivors(t);
    }
  }

  /** Regrouping the first producer's head and remainder around the split of
      the other producers. */
  lemma MultisetRegroup<T>(x: T, rest: seq<T>, hs: seq<T>, ft: seq<T>, fst: seq<T>)
    requires multiset(ft) == multiset(hs) + multiset(fst)
    ensures multiset([x] + rest + ft) == multiset([x] + hs) + multiset(rest + fst)
  {
  }

  /** One pass over producers whose first one yields: its message heads the
      pass, and its remainder heads what survives. */
  lemma SurvivorsFront<T>(live: seq<seq<T>>)
    requires |live| > 0 && |live[0]| > 0
    ensures Heads(live) == [live[0][0]] + Heads(live[1..])
    ensures Flatten(Survivors(live)) == live[0][1..] + Flatten(Survivors(live[1..]))
  {
    var sv := [live[0][1..]] + Survivors(live[1..]);
    assert Survivors(live) == sv;
    assert sv[0] == live[0][1..] && sv[1..] == Survivors(live[1..]);
  }

  /** Every message of every producer is written exactly once. */
  lemma {:induction false} RoundRobinWritesEachMessageOnce<T>(live: seq<seq<T>>)
    ensures multiset(RoundRobin(live)) == multiset(Flatten(live))
    ensures |RoundRobin(live)| == TotalLength(live)
    decreases Measure(live)
  {
    if |live| > 0 {
      PassShrinks(live);
      PassSplits(live);
      RoundRobinWritesEachMessageOnce(Survivors(live));
    }
  }

  // ---------------------------------------------------------------------
  // Round structure
  // ---------------------------------------------------------------------

  /** Reference schedule, pass `p`: the `p`-th message of each producer that
      has one, in producer-list order. */
  function Round<T>(live: seq<seq<T>>, p: nat): seq<T> {
    if |live| == 0 then []
    else (if p < |live[0]| then [live[0][p]] else []) + Round(live[1..], p)
  }

  /** Reference schedule, passes `p` up to (not including) `n`, one after another. */
  function Rounds<T>(live: seq<seq<T>>, p: nat, n: nat): seq<T>
    decreases n - p
  {
    if n <= p then [] else Round(live, p) + Rounds(live, p + 1, n)
  }

  lemma {:induction false} HeadsIsFirstRound<T>(live: seq<seq<T>>)
    ensures Heads(live) == Round(live, 0)
  {
    if |live| > 0 {
      HeadsIsFirstRound(live[1..]);
    }
  }

  lemma {:induction false} SurvivorsShiftRound<T>(live: seq<seq<T>>, p: nat)
    ensures Round(Survivors(live), p) == Round(live, p + 1)
  {
    if |live| > 0 {
      SurvivorsShiftRound(live[1..], p);
      SurvivorsUnfold(live);
    }
  }

  lemma {:induction false} SurvivorsShiftRounds<T>(live: seq<seq<T>>, p: nat, n: nat)
    ensures Rounds(Survivors(live), p, n) == Rounds(live, p + 1, n + 1)
    decreases n - p
  {
    if p < n {
      SurvivorsShiftRound(live, p);
      SurvivorsShiftRounds(live, p + 1, n);
    }
  }

  lemma {:induction false} RoundPastLongest<T>(live: seq<seq<T>>, p: nat)
    requires MaxLength(live) <= p
    ensures Round(live, p) == []
  {
    if |live| > 0 {
      RoundPastLongest(live[1..], p);
    }
  }

  /** A pass shortens the longest producer by one, and retires every
      producer exactly when none had anything left. */
  lemma {:induction false} SurvivorsMaxLength<T>(live: seq<seq<T>>)
    ensures MaxLength(Survivors(live)) == if MaxLength(live) == 0 then 0 else MaxLength(live) - 1
    ensures |Survivors(live)| == 0 <==> MaxLength(live) == 0
  {
    if |live| > 0 {
      SurvivorsMaxLength(live[1..]);
      SurvivorsUnfold(live);
    }
  }

  /** Pass `p` of `WriteAll` writes the `p`-th message of each producer that
      still has one, in producer-list order, with no reordering by time. */
  lemma {:induction false} RoundRobinIsRoundByRound<T>(live: seq<seq<T>>)
    ensures RoundRobin(live) == Rounds(live, 0, MaxLength(live))
    decreases Measure(live)
  {
    if |live| > 0 {
      PassShrinks(live);
      var s := Survivors(live);
      HeadsIsFirstRound(live);
      SurvivorsMaxLength(live);
      RoundRobinIsRoundByRound(s);
      if MaxLength(live) == 0 {
        RoundPastLongest(live, 0);
      } else {
        SurvivorsShiftRounds(live, 0, MaxLength(live) - 1);
      }
    }
  }

  /** `WriteAll` makes one pass per message of its longest producer, plus
      the final pass in which the last producers report exhaustion. */
  lemma {:induction false} PassCount<T>(live: seq<seq<T>>)
    ensures Passes(live) == if |live| == 0 then 0 else MaxLength(live) + 1
    decreases Measure(live)
  {
    if |live| > 0 {
      PassShrinks(live);
      SurvivorsMaxLength(live);
      PassCount(Survivors(live));
    }
  }

  // ---------------------------------------------------------------------
  // Per-producer order
  // ---------------------------------------------------------------------

  function Filter<T>(keep: T -> bool, s: seq<T>): seq<T> {
    if |s| == 0 then []
    else (if keep(s[0]) then [s[0]] else []) + Filter(keep, s[1..])
  }

  lemma {:induction false} FilterConcat<T>(keep: T -> bool, a: seq<T>, b: seq<T>)
    ensures Filter(keep, a + b) == Filter(keep, a) + Filter(keep, b)
  {
    if |a| > 0 {
      assert (a + b)[0] == a[0];
      assert (a + b)[1..] == a[1..] + b;
      FilterConcat(keep, a[1..], b);
    } else {
      assert a + b == b;
    }
  }

  /** The messages of producer `k` are the only ones `keep` accepts. */
  predicate OwnedBy<T>(keep: T -> bool, live: seq<seq<T>>, k: nat) {
    && k < |live|
    && (forall j :: 0 <= j < |live[k]| ==> keep(live[k][j]))
    && (forall i, j :: 0 <= i < |live| && i != k && 0 <= j < |live[i]| ==> !keep(live[i][j]))
  }

  lemma {:induction false} FilterRound<T>(keep: T -> bool, live: seq<seq<T>>, k: nat, p: nat)
    requires OwnedBy(keep, live, k)
    ensures Filter(keep, Round(live, p)) == if p < |live[k]| then [live[k][p]] else []
  {
    var head := if p < |live[0]| then [live[0][p]] else [];
    FilterConcat(keep, head, Round(live[1..], p));
    if k == 0 {
      assert forall i, j :: 0 <= i < |live[1..]| && 0 <= j < |live[1..][i]| ==> !keep(live[1..][i][j]) by {
        forall i, j | 0 <= i < |live[1..]| && 0 <= j < |live[1..][i]|
          ensures !keep(live[1..][i][j])
        {
          assert live[1..][i] == live[i + 1];
        }
      }
      FilterNowhere(keep, live[1..], p);
    } else {
      assert OwnedBy(keep, live[1..], k - 1) by {
        assert live[1..][k - 1] == live[k];
        forall i, j | 0 <= i < |live[1..]| && i != k - 1 && 0 <= j < |live[1..][i]|
          ensures !keep(live[1..][i][j])
        {
          assert live[1..][i] == live[i + 1];
        }
      }
      FilterRound(keep, live[1..], k - 1, p);
    }
  }

  lemma {:induction false} FilterNowhere<T>(keep: T -> bool, live: seq<seq<T>>, p: nat)
    requires forall i, j :: 0 <= i < |live| && 0 <= j < |live[i]| ==> !keep(live[i][j])
    ensures Filter(keep, Round(live, p)) == []
  {
    if |live| > 0 {
      var head := if p < |live[0]| then [live[0][p]] else [];
      FilterConcat(keep, head, Round(live[1..], p));
      assert forall i, j :: 0 <= i < |live[1..]| && 0 <= j < |live[1..][i]| ==> !keep(live[1..][i][j]) by {
        forall i, j | 0 <= i < |live[1..]| && 0 <= j < |live[1..][i]|
          ensures !keep(live[1..][i][j])
        {
          assert live[1..][i] == live[i + 1];
        }
      }
      FilterNowhere(keep, live[1..], p);
    }
  }

  lemma {:induction false} FilterRounds<T>(keep: T -> bool, live: seq<seq<T>>, k: nat, p: nat, n: nat)
    requires OwnedBy(keep, live, k)
    requires p <= n && |live[k]| <= n
    ensures Filter(keep, Rounds(live, p, n)) == if p <= |live[k]| then live[k][p..] else []
    decreases n - p
  {
    if p < n {
      var here := Round(live, p);
      var later := Rounds(live, p + 1, n);
      assert Filter(keep, Rounds(live, p, n)) == Filter(keep, here) + Filter(keep, later) by {
        FilterConcat(keep, here, later);
      }
      assert Filter(keep, here) == if p < |live[k]| then [live[k][p]] else [] by {
        FilterRound(keep, live, k, p);
      }
      assert Filter(keep, later) == if p + 1 <= |live[k]| then live[k][p + 1..] else [] by {
        FilterRounds(keep, live, k, p + 1, n);
      }
      SuffixStep(live[k], p, Filter(keep, here), Filter(keep, later));
    }
  }

  /** The suffix of `xs` from `p` is its `p`-th element, if any, followed by
      the suffix from `p + 1`. */
  lemma SuffixStep<T>(xs: seq<T>, p: nat, a: seq<T>, b: seq<T>)
    requires a == (if p < |xs| then [xs[p]] else [])
    requires b == (if p + 1 <= |xs| then xs[p + 1..] else [])
    ensures a + b == if p <= |xs| then xs[p..] else []
  {
    if p < |xs| {
      assert xs[p..] == [xs[p]] + xs[p + 1..];
    }
  }

  lemma {:induction false} LongestBounds<T>(live: seq<seq<T>>, k: nat)
    requires k < |live|
    ensures |live[k]| <= MaxLength(live)
  {
    if k > 0 {
      LongestBounds(live[1..], k - 1);
      assert live[1..][k - 1] == live[k];
    }
  }

  /** Within one producer, the output keeps the producer's own order: picking
      out of the interleave the messages that only producer `k` holds gives
      back exactly that producer's sequence. */
  lemma RoundRobinKeepsProducerOrder<T>(keep: T -> bool, live: seq<seq<T>>, k: nat)
    requires OwnedBy(keep, live, k)
    ensures Filter(keep, RoundRobin(live)) == live[k]
  {
    RoundRobinIsRoundByRound(live);
    LongestBounds(live, k);
    FilterRounds(keep, live, k, 0, MaxLength(live));
  }

  // ---------------------------------------------------------------------
  // Relabelling messages commutes with the interleave
  // ---------------------------------------------------------------------

  function Map<T, U>(f: T -> U, s: seq<T>): (r: seq<U>)
    ensures |r| == |s|
    ensures forall i :: 0 <= i < |s| ==> r[i] == f(s[i])
  {
    if |s| == 0 then [] else [f(s[0])] + Map(f, s[1..])
  }

  function MapEach<T, U>(f: T -> U, live: seq<seq<T>>): (r: seq<seq<U>>)
    ensures |r| == |live|
    ensures forall i :: 0 <= i < |live| ==> r[i] == Map(f, live[i])
  {
    if |live| == 0 then [] else [Map(f, live[0])] + MapEach(f, live[1..])
  }

  lemma {:induction false} MapConcat<T, U>(f: T -> U, a: seq<T>, b: seq<T>)
    ensures Map(f, a + b) == Map(f, a) + Map(f, b)
  {
  }

  lemma {:induction false} PassCommutesWithMap<T, U>(f: T -> U, live: seq<seq<T>>)
    ensures Heads(MapEach(f, live)) == Map(f, Heads(live))
    ensures Survivors(MapEach(f, live)) == MapEach(f, Survivors(live))
  {
    if |live| > 0 {
      PassCommutesWithMap(f, live[1..]);
      assert MapEach(f, live)[1..] == MapEach(f, live[1..]);
      var head := if |live[0]| > 0 then [live[0][0]] else [];
      MapConcat(f, head, Heads(live[1..]));
      if |live[0]| > 0 {
        assert Map(f, live[0])[1..] == Map(f, live[0][1..]);
      }
    }
  }

  lemma {:induction false} MeasureOfMap<T, U>(f: T -> U, live: seq<seq<T>>)
    ensures Measure(MapEach(f, live)) == Measure(live)
  {
    if |live| > 0 {
      MeasureOfMap(f, live[1..]);
      assert MapEach(f, live)[1..] == MapEach(f, live[1..]);
    }
  }

  /** Interleaving relabelled producers is relabelling the interleave. */
  lemma {:induction false} RoundRobinCommutesWithMap<T, U>(f: T -> U, live: seq<seq<T>>)
    ensures RoundRobin(MapEach(f, live)) == Map(f, RoundRobin(live))
    decreases Measure(live)
  {
    if |live| > 0 {
      PassShrinks(live);
      PassCommutesWithMap(f, live);
      RoundRobinCommutesWithMap(f, Survivors(live));
      MapConcat(f, Heads(live), RoundRobin(Survivors(live)));
    }
  }
}

=== FILE: replay.dfy ===
/** Replaying a store: `Seek`, then `MoveNext` and `Read` in turn until
    `MoveNext` answers false, as a consumer of the reader drives it. The
    module relates what that loop delivers to a declarative description of
    the replay. */
module Replay {
  import opened Wrappers
  import opened StoreTypes
  import Catalog
  import opened EnabledStreams
  import opened StoreReader

  /** The messages the `MoveNext`/`Read` loop delivers from `r` on: each
      envelope `MoveNext` returns, paired with the data the following `Read`
      hands back. */
  function Drain(r: Reader): (res: Result<seq<Message>, Error>)
    requires Valid(r)
    ensures res.Failure? ==> res.error == InvalidData
    ensures res.Success? ==>
              forall k :: 0 <= k < |res.value| ==>
                && Record(res.value[k].envelope, res.value[k].data) in r.file
                && Selected(r.descriptor, r.enabled, res.value[k].envelope)
    decreases Pending(r)
  {
    var step :- MoveNext(r);
    if !step.found then Success([])
    else
      var out :- Read(step.reader);
      var rest :- Drain(out.reader);
      Success([Message(step.envelope, out.data.value)] + rest)
  }

  /** Every item is a well-formed record of a catalog stream. */
  predicate Clean(catalog: seq<StreamMetadata>, items: seq<Item>) {
    forall j :: 0 <= j < |items| ==> items[j].Record? && Catalog.HasId(catalog, items[j].envelope.sourceId)
  }

  /** The replay, described record by record: a record in the window whose
      stream is enabled is delivered; a record past the window's right bound
      closes its stream; any other record is passed over. */
  function Replayed(d: ReplayDescriptor, enabled: seq<int>, items: seq<Item>): seq<Message>
    requires forall j :: 0 <= j < |items| ==> items[j].Record?
    decreases |items|
  {
    if |items| == 0 then []
    else
      var e := items[0].envelope;
      if Selected(d, enabled, e) then [Message(e, items[0].data)] + Replayed(d, enabled, items[1..])
      else
        var left := if d.interval.right < GoverningTime(d, e) then RemoveFirst(enabled, e.sourceId) else enabled;
        Replayed(d, left, items[1..])
  }

  /** With no stream enabled nothing is delivered. */
  lemma {:induction false} NothingEnabledReplaysNothing(d: ReplayDescriptor, items: seq<Item>)
    requires forall j :: 0 <= j < |items| ==> items[j].Record?
    ensures Replayed(d, [], items) == []
  {
    if |items| > 0 {
      NothingEnabledReplaysNothing(d, items[1..]);
    }
  }

  /** Once a record past the window's right bound has been met, its stream
      delivers nothing more, whatever the other streams do. */
  lemma ClosedStreamIsNotReplayed(d: ReplayDescriptor, enabled: seq<int>, items: seq<Item>)
    requires NoDuplicates(enabled)
    requires forall j :: 0 <= j < |items| ==> items[j].Record?
    requires |items| > 0 && d.interval.right < GoverningTime(d, items[0].envelope)
    ensures forall k :: 0 <= k < |Replayed(d, enabled, items)| ==>
              Replayed(d, enabled, items)[k].envelope.sourceId != items[0].envelope.sourceId
  {
    var id := items[0].envelope.sourceId;
    ReplayedFromEnabled(d, RemoveFirst(enabled, id), items[1..]);
  }

  /** Only enabled streams are delivered, even as streams are closed on the way. */
  lemma {:induction false} ReplayedFromEnabled(d: ReplayDescriptor, enabled: seq<int>, items: seq<Item>)
    requires forall j :: 0 <= j < |items| ==> items[j].Record?
    ensures forall k :: 0 <= k < |Replayed(d, enabled, items)| ==>
              Replayed(d, enabled, items)[k].envelope.sourceId in enabled
    decreases |items|
  {
    if |items| > 0 {
      var e := items[0].envelope;
      if Selected(d, enabled, e) {
        ReplayedFromEnabled(d, enabled, items[1..]);
      } else {
        var left := if d.interval.right < GoverningTime(d, e) then RemoveFirst(enabled, e.sourceId) else enabled;
        ReplayedFromEnabled(d, left, items[1..]);
      }
    }
  }

  /** From a reader that has no more data the loop delivers nothing. */
  lemma DrainExhausted(r: Reader)
    requires Valid(r) && !r.hasMoreData
    ensures Drain(r) == Success([])
  {
  }

  /** On a file of well-formed records of catalog streams, the loop
      started on a record's envelope delivers exactly the replay of the
      records from that one on. */
  lemma {:induction false} DrainIsReplayed(r: Reader)
    requires Valid(r) && r.cursor.AtData?
    requires Clean(r.catalog, r.file[r.cursor.index..])
    ensures forall j :: 0 <= j < |r.file[r.cursor.index..]| ==> r.file[r.cursor.index..][j].Record?
    ensures Drain(r) == Success(Replayed(r.descriptor, r.enabled, r.file[r.cursor.index..]))
    decreases Pending(r), 1
  {
    var i := r.cursor.index;
    var items := r.file[i..];
    assert items[0] == r.file[i];
    assert items[1..] == r.file[i + 1..];
    if Selected(r.descriptor, r.enabled, r.envelope) {
      DrainDelivers(r);
    } else {
      DrainPassesOver(r);
    }
  }

  /** The loop on a record that passes the filter: it is delivered, and the
      loop goes on from the next record with the same streams enabled. */
  lemma {:induction false} DrainDelivers(r: Reader)
    requires Valid(r) && r.cursor.AtData?
    requires Clean(r.catalog, r.file[r.cursor.index..])
    requires Selected(r.descriptor, r.enabled, r.envelope)
    ensures Clean(r.catalog, r.file[r.cursor.index + 1..])
    ensures Drain(r) == Success([Message(r.envelope, r.file[r.cursor.index].data)]
                                + Replayed(r.descriptor, r.enabled, r.file[r.cursor.index + 1..]))
    decreases Pending(r), 0
  {
    var i := r.cursor.index;
    assert r.file[i] == r.file[i..][0];
    assert Clean(r.catalog, r.file[i + 1..]) by {
      assert r.file[i + 1..] == r.file[i..][1..];
    }
    MoveNextReturns(r);
    var s := ReadData(r);
    if i + 1 < |r.file| {
      assert r.file[i + 1] == r.file[i + 1..][0];
      DrainIsReplayed(Read(s).value.reader);
    }
  }

  /** The loop on a record that fails the filter: it is passed over, its
      stream closed if it lies past the window, and the loop goes on from
      the next record. */
  lemma {:induction false} DrainPassesOver(r: Reader)
    requires Valid(r) && r.cursor.AtData?
    requires Clean(r.catalog, r.file[r.cursor.index..])
    requires !Selected(r.descriptor, r.enabled, r.envelope)
    ensures Clean(r.catalog, r.file[r.cursor.index + 1..])
    ensures var d := r.descriptor;
            var e := r.envelope;
            var left := if d.interval.right < GoverningTime(d, e) then RemoveFirst(r.enabled, e.sourceId) else r.enabled;
            Drain(r) == Success(Replayed(d, left, r.file[r.cursor.index + 1..]))
    decreases Pending(r), 0
  {
    var i := r.cursor.index;
    assert r.file[i] == r.file[i..][0];
    assert Clean(r.catalog, r.file[i + 1..]) by {
      assert r.file[i + 1..] == r.file[i..][1..];
    }
    assert Advance(r).Success? by {
      if i + 1 < |r.file| {
        assert r.file[i + 1] == r.file[i + 1..][0];
      }
    }
    MoveNextLoops(r);
    var r3 := Advance(r).value;
    if |r3.enabled| == 0 {
      NothingEnabledReplaysNothing(r.descriptor, r.file[i + 1..]);
    } else if r3.hasMoreData {
      DrainIsReplayed(r3);
    }
  }

  /** `Seek` followed by the loop, on a file of well-formed records of
      catalog streams: the scan never fails, it stops after the leading
      records at or before the window's left bound, and the loop delivers the
      replay of the rest. */
  lemma SeekThenDrain(r: Reader, d: ReplayDescriptor, file: seq<Item>)
    requires NoDuplicates(r.enabled)
    requires Clean(r.catalog, file)
    ensures Seek(r, d, file).Success?
    ensures var s := Seek(r, d, file).value;
            var i := Position(s);
            && i <= |file|
            && (forall j :: 0 <= j < i ==> GoverningTime(d, file[j].envelope) <= d.interval.left)
            && (i < |file| ==> d.interval.left < GoverningTime(d, file[i].envelope))
            && Drain(s) == Success(Replayed(d, r.enabled, file[i..]))
  {
    var res := Seek(r, d, file);
    var s := res.value;
    if s.cursor.AtData? {
      DrainIsReplayed(s);
    } else {
      assert |file[|file|..]| == 0;
      if s.hasMoreData {
        assert Drain(s) == Success([]);
      } else {
        DrainExhausted(s);
      }
    }
  }

  /** A record exactly at the window's left bound lies in the window, yet
      when it opens the file `Seek` steps over it and it is never delivered. */
  lemma RecordAtLeftIsSkippedBySeek(r: Reader, d: ReplayDescriptor, e: Envelope, x: Token)
    requires NoDuplicates(r.enabled)
    requires Catalog.HasId(r.catalog, e.sourceId) && e.sourceId in r.enabled
    requires GoverningTime(d, e) == d.interval.left <= d.interval.right
    ensures Selected(d, r.enabled, e)
    ensures Seek(r, d, [Record(e, x)]).Success?
    ensures Drain(Seek(r, d, [Record(e, x)]).value) == Success([])
  {
    SeekThenDrain(r, d, [Record(e, x)]);
    assert [Record(e, x)][1..] == [];
  }

  /** `MoveNext` with no stream enabled still consumes the record under the
      cursor before it answers false, whatever follows it, as long as the
      next envelope, if any, names a catalog stream. */
  lemma NoStreamEnabledConsumesOneRecord(r: Reader)
    requires Valid(r) && r.cursor.AtData? && r.file[r.cursor.index].Record?
    requires |r.enabled| == 0
    requires var i := r.cursor.index;
             i + 1 < |r.file| && !r.file[i + 1].EnvelopeMalformed? ==>
               Catalog.HasId(r.catalog, r.file[i + 1].envelope.sourceId)
    ensures MoveNext(r).Success?
    ensures !MoveNext(r).value.found
    ensures Position(MoveNext(r).value.reader) == r.cursor.index + 1
  {
    MoveNextLoops(r);
  }

  /** `Read` after a successful `MoveNext` hands back the payload of the
      record `MoveNext` found and moves on to the next record's envelope. */
  lemma MoveNextThenRead(r: Reader)
    requires Valid(r)
    requires MoveNext(r).Success? && MoveNext(r).value.found
    ensures var s := MoveNext(r).value.reader;
            var i := s.cursor.index;
            && Read(s).Success? == (i == |s.file| || s.file[i].EnvelopeMalformed? || Catalog.HasId(s.catalog, s.file[i].envelope.sourceId))
            && (Read(s).Success? ==> Record(MoveNext(r).value.envelope, Read(s).value.data.value) == r.file[i - 1])
            && (Read(s).Success? && Read(s).value.more ==> Read(s).value.reader.cursor == AtData(i))
  {
  }
}

=== FILE: round_trip.dfy ===
/** Writing with the simple writer, then replaying the records it wrote. */
module RoundTrip {
  import opened Wrappers
  import opened StoreTypes
  import Catalog
  import opened EnabledStreams
  import opened StoreReader
  import opened Interleave
  import opened SimpleWriter
  import opened Replay

  /** The data file holding `ms`, one well-formed record per message. */
  function Stored(ms: seq<Message>): (items: seq<Item>)
    ensures |items| == |ms|
    ensures forall k :: 0 <= k < |ms| ==> items[k] == Record(ms[k].envelope, ms[k].data)
  {
    Map((m: Message) => Record(m.envelope, m.data), ms)
  }

  /** A message that a replay with reader `r` and descriptor `d` delivers
      wherever it stands in the file: its stream is in the catalog and
      enabled and its governing time lies in the window. */
  predicate Deliverable(r: Reader, d: ReplayDescriptor, m: Message) {
    Catalog.HasId(r.catalog, m.envelope.sourceId) && Selected(d, r.enabled, m.envelope)
  }

  /** The replay of records that are all delivered is the records' messages. */
  lemma {:induction false} ReplayedAllSelected(d: ReplayDescriptor, enabled: seq<int>, ms: seq<Message>)
    requires forall k :: 0 <= k < |ms| ==> Selected(d, enabled, ms[k].envelope)
    ensures Replayed(d, enabled, Stored(ms)) == ms
  {
    if |ms| > 0 {
      assert Stored(ms)[1..] == Stored(ms[1..]);
      ReplayedAllSelected(d, enabled, ms[1..]);
    }
  }

  /** Storing messages that are all deliverable and replaying them gives
      them back, in order, as long as the first is strictly after the
      window's left bound (otherwise `Seek` steps over it). */
  lemma ReplayReturnsStoredMessages(r: Reader, d: ReplayDescriptor, ms: seq<Message>)
    requires NoDuplicates(r.enabled)
    requires forall k :: 0 <= k < |ms| ==> Deliverable(r, d, ms[k])
    requires |ms| > 0 ==> d.interval.left < GoverningTime(d, ms[0].envelope)
    ensures Seek(r, d, Stored(ms)).Success?
    ensures Drain(Seek(r, d, Stored(ms)).value) == Success(ms)
  {
    var file := Stored(ms);
    SeekThenDrain(r, d, file);
    var i := Position(Seek(r, d, file).value);
    if |ms| > 0 {
      assert i == 0;
    }
    assert file[0..] == file;
    ReplayedAllSelected(d, r.enabled, ms);
  }

  /** A record at the window's left bound that follows a record inside the
      window is delivered, since the window is inclusive; compare
      `RecordAtLeftDroppedFirst`. */
  lemma RecordAtLeftDeliveredAfterFirst(r: Reader, d: ReplayDescriptor, m0: Message, m1: Message)
    requires NoDuplicates(r.enabled)
    requires Deliverable(r, d, m0) && Deliverable(r, d, m1)
    requires d.interval.left < GoverningTime(d, m0.envelope)
    requires GoverningTime(d, m1.envelope) == d.interval.left
    ensures Drain(Seek(r, d, Stored([m0, m1])).value) == Success([m0, m1])
  {
    ReplayReturnsStoredMessages(r, d, [m0, m1]);
  }

  /** The same two records in the other order: `Seek` steps over the one at
      the left bound, and only the other is delivered. */
  lemma RecordAtLeftDroppedFirst(r: Reader, d: ReplayDescriptor, m0: Message, m1: Message)
    requires NoDuplicates(r.enabled)
    requires Deliverable(r, d, m0) && Deliverable(r, d, m1)
    requires d.interval.left < GoverningTime(d, m0.envelope)
    requires GoverningTime(d, m1.envelope) == d.interval.left
    ensures Drain(Seek(r, d, Stored([m1, m0])).value) == Success([m0])
  {
    var file := Stored([m1, m0]);
    SeekThenDrain(r, d, file);
    assert file[0].envelope == m1.envelope && file[1].envelope == m0.envelope;
    assert Position(Seek(r, d, file).value) == 1;
    assert file[1..] == Stored([m0]);
    ReplayedAllSelected(d, r.enabled, [m0]);
  }

  /** A property holding of every message of every producer holds of every
      message of their concatenation. */
  lemma {:induction false} FlattenKeeps(live: seq<seq<Message>>, P: Message -> bool)
    requires forall i, j :: 0 <= i < |live| && 0 <= j < |live[i]| ==> P(live[i][j])
    ensures forall k :: 0 <= k < |Flatten(live)| ==> P(Flatten(live)[k])
  {
    if |live| > 0 {
      FlattenKeeps(live[1..], P);
      assert forall i, j :: 0 <= i < |live[1..]| && 0 <= j < |live[1..][i]| ==> live[1..][i][j] == live[i + 1][j];
      forall k | 0 <= k < |Flatten(live)|
        ensures P(Flatten(live)[k])
      {
        if k < |live[0]| {
          assert Flatten(live)[k] == live[0][k];
        } else {
          assert Flatten(live)[k] == Flatten(live[1..])[k - |live[0]|];
        }
      }
    }
  }

  /** Writing every registered source with `WriteAll` and replaying the
      store with every stream enabled gives back the written records, in
      the order written, so every message of every source exactly once.
      Only the first record written must lie strictly after the window's
      left bound, since `Seek` steps over it otherwise. */
  lemma WriteThenReplay(w: Writer, order: seq<int>, r: Reader, d: ReplayDescriptor)
    requires EnumeratesKeys(w.outputs, order) && w.store.Some?
    requires NoDuplicates(r.enabled)
    requires forall i, j :: 0 <= i < |order| && 0 <= j < |w.outputs[order[i]]| ==>
               Deliverable(r, d, w.outputs[order[i]][j])
    requires |Written(w, order)| > 0 ==> d.interval.left < GoverningTime(d, Written(w, order)[0].envelope)
    ensures var ms := Written(w, order);
            && Seek(r, d, Stored(ms)).Success?
            && Drain(Seek(r, d, Stored(ms)).value) == Success(ms)
            && multiset(ms) == multiset(Flatten(Producers(w.outputs, order)))
  {
    var ms := Written(w, order);
    WrittenDeliverable(w, order, r, d);
    ReplayReturnsStoredMessages(r, d, ms);
  }

  /** What `WriteAll` writes is every source message exactly once, so each
      written message is deliverable when every source message is. */
  lemma WrittenDeliverable(w: Writer, order: seq<int>, r: Reader, d: ReplayDescriptor)
    requires EnumeratesKeys(w.outputs, order) && w.store.Some?
    requires forall i, j :: 0 <= i < |order| && 0 <= j < |w.outputs[order[i]]| ==>
               Deliverable(r, d, w.outputs[order[i]][j])
    ensures multiset(Written(w, order)) == multiset(Flatten(Producers(w.outputs, order)))
    ensures forall k :: 0 <= k < |Written(w, order)| ==> Deliverable(r, d, Written(w, order)[k])
  {
    var live := Producers(w.outputs, order);
    var ms := Written(w, order);
    var P := (m: Message) => Deliverable(r, d, m);
    assert multiset(ms) == multiset(Flatten(live));
    assert forall k :: 0 <= k < |Flatten(live)| ==> P(Flatten(live)[k]) by {
      assert forall i, j :: 0 <= i < |live| && 0 <= j < |live[i]| ==> P(live[i][j]);
      FlattenKeeps(live, P);
    }
    forall k | 0 <= k < |ms|
      ensures Deliverable(r, d, ms[k])
    {
      assert ms[k] in multiset(Flatten(live));
      var x :| 0 <= x < |Flatten(live)| && Flatten(live)[x] == ms[k];
    }
  }
}

=== FILE: simple_writer.dfy ===
/** The simple JSON store writer (`JsonSimpleWriter`): argument checks for
    store and stream creation, one lazy producer per stream id, and the
    round-robin `WriteAll`. The underlying `JsonStoreWriter` is not part of
    this model; it is represented by the streams opened on it and the
    records appended to it. */
module SimpleWriter {
  import opened Wrappers
  import opened StoreTypes
  import opened Interleave

  /** A `KnownSerializers` instance; this writer accepts none. */
  datatype KnownSerializers = KnownSerializers

  /** A `CancellationToken`. */
  datatype CancellationToken = CancellationToken(cancellationRequested: bool)

  /** The `IStreamMetadata` that `CreateStream` receives: JSON store metadata,
      or metadata of some other store kind. */
  datatype StreamMetadataArg =
    | JsonStream(metadata: StreamMetadata)
    | OtherStream(id: int, name: string)

  /** The underlying store writer: where it writes, the streams opened on it
      and the records `Write` has appended, in order. */
  datatype StoreWriter = StoreWriter(
    name: string,
    path: string,
    createSubdirectory: bool,
    streams: seq<StreamMetadata>,
    records: seq<Message>)

  /** The writer's fields: the store writer (null until `CreateStore`) and
      the producers, keyed by stream id. A producer is the sequence of
      messages its enumerator has still to yield. */
  datatype Writer = Writer(store: Option<StoreWriter>, outputs: map<int, seq<Message>>)

  /** The constructor that takes no store name: no store writer yet, so
      `Name` and `Path` are null, and no producer registered. */
  function New(): (w: Writer)
    ensures w.store.None? && |w.outputs| == 0
  {
    Writer(None, map[])
  }

  /** `CreateStore`: a non-null `serializers` argument is an
      `ArgumentException` and the writer is left as it was; otherwise a
      fresh store writer replaces the current one. */
  function CreateStore(w: Writer, name: string, path: string, createSubdirectory: bool,
                       serializers: Option<KnownSerializers>): (res: Result<Writer, Error>)
    ensures res.Failure? <==> serializers.Some?
    ensures res.Failure? ==> res.error == Argument("serializers")
    ensures res.Success? ==>
              && res.value.outputs == w.outputs
              && res.value.store.Some?
              && res.value.store.value.name == name
              && res.value.store.value.path == path
              && |res.value.store.value.streams| == 0
              && |res.value.store.value.records| == 0
  {
    if serializers.Some? then Failure(Argument("serializers"))
    else Success(w.(store := Some(StoreWriter(name, path, createSubdirectory, [], []))))
  }

  /** The constructor that takes a store name: `CreateStore` with no serializers. */
  function NewStore(name: string, path: string, createSubdirectory: bool): (w: Writer)
    ensures w.store.Some? && |w.outputs| == 0
    ensures w.store.value.name == name && w.store.value.path == path
    ensures w.store.value.createSubdirectory == createSubdirectory
    ensures |w.store.value.streams| == 0 && |w.store.value.records| == 0
  {
    CreateStore(New(), name, path, createSubdirectory, None).value
  }

  /** `JsonStoreWriter.OpenStream`, as far as the simple writer relies on it:
      the stream is recorded and its metadata handed back. */
  function StoreOpenStream(s: StoreWriter, m: StreamMetadata): (StoreWriter, StreamMetadata) {
    (s.(streams := s.streams + [m]), m)
  }

  /** `CreateStream`: null metadata, metadata of another store kind and a
      null source are rejected in that order; a writer without a store
      cannot open the stream; otherwise the stream is opened on the store and
      its producer is registered under the stream's id, replacing any
      producer registered under that id before. */
  function CreateStream(w: Writer, metadata: Option<StreamMetadataArg>, source: Option<seq<Message>>): (res: Result<Writer, Error>)
    ensures metadata.None? ==> res == Failure(ArgumentNull("metadata"))
    ensures metadata.Some? && metadata.value.OtherStream? ==> res == Failure(Argument("metadata"))
    ensures metadata.Some? && metadata.value.JsonStream? && source.None? ==> res == Failure(ArgumentNull("source"))
    ensures metadata.Some? && metadata.value.JsonStream? && source.Some? && w.store.None? ==> res == Failure(NullReference)
    ensures metadata.Some? && metadata.value.JsonStream? && source.Some? && w.store.Some? ==> res.Success?
    ensures res.Success? ==>
              var id := metadata.value.metadata.id;
              && w.store.Some? && source.Some?
              && res.value.outputs.Keys == w.outputs.Keys + {id}
              && res.value.outputs[id] == source.value
              && (forall k :: k in w.outputs && k != id ==> res.value.outputs[k] == w.outputs[k])
              && res.value.store.Some?
              && res.value.store.value.records == w.store.value.records
              && res.value.store.value.streams == w.store.value.streams + [metadata.value.metadata]
  {
    if metadata.None? then Failure(ArgumentNull("metadata"))
    else if !metadata.value.JsonStream? then Failure(Argument("metadata"))
    else if source.None? then Failure(ArgumentNull("source"))
    else if w.store.None? then Failure(NullReference)
    else
      var (store, meta) := StoreOpenStream(w.store.value, metadata.value.metadata);
      Success(Writer(Some(store), w.outputs[meta.id := source.value]))
  }

  /** Registering a second source under an id already registered replaces
      the first: the set of producers does not grow and the id now holds the
      second source. */
  lemma CreateStreamTwiceReplaces(w: Writer, m1: StreamMetadata, m2: StreamMetadata, s1: seq<Message>, s2: seq<Message>)
    requires w.store.Some? && m1.id == m2.id
    ensures var w1 := CreateStream(w, Some(JsonStream(m1)), Some(s1));
            && w1.Success?
            && var w2 := CreateStream(w1.value, Some(JsonStream(m2)), Some(s2));
            && w2.Success?
            && w2.value.outputs.Keys == w1.value.outputs.Keys
            && |w2.value.outputs| == |w1.value.outputs|
            && w2.value.outputs[m1.id] == s2
  {
  }

  // ---------------------------------------------------------------------
  // WriteAll
  // ---------------------------------------------------------------------

  /** `Dictionary.Values`: every registered producer exactly once, in an order
      the code leaves unspecified, given here as the order of their ids. */
  ghost predicate EnumeratesKeys(outputs: map<int, seq<Message>>, order: seq<int>) {
    && (forall i, j :: 0 <= i < j < |order| ==> order[i] != order[j])
    && (forall i :: 0 <= i < |order| ==> order[i] in outputs)
    && (forall k :: k in outputs ==> k in order)
  }

  /** The producer list `WriteAll` starts from. */
  function Producers(outputs: map<int, seq<Message>>, order: seq<int>): (live: seq<seq<Message>>)
    requires forall i :: 0 <= i < |order| ==> order[i] in outputs
    ensures |live| == |order|
    ensures forall i :: 0 <= i < |order| ==> live[i] == outputs[order[i]]
  {
    seq(|order|, i requires 0 <= i < |order| => outputs[order[i]])
  }

  /** `WriteAll`: runs the round-robin until every producer has reported
      exhaustion, appending each message pulled to the store. The replay
      descriptor and the cancellation token are accepted and never looked
      at. Afterwards every producer is exhausted. With no store, the first
      message pulled cannot be written. */
  function WriteAll(w: Writer, order: seq<int>, descriptor: ReplayDescriptor,
                    cancelationToken: CancellationToken): (res: Result<Writer, Error>)
    requires EnumeratesKeys(w.outputs, order)
    ensures res.Failure? <==> w.store.None? && TotalLength(Producers(w.outputs, order)) > 0
    ensures res.Failure? ==> res.error == NullReference
    ensures res.Success? ==>
              && res.value.outputs.Keys == w.outputs.Keys
              && (forall k :: k in res.value.outputs ==> |res.value.outputs[k]| == 0)
              && res.value.store.Some? == w.store.Some?
    ensures res.Success? && w.store.Some? ==>
              var before := w.store.value.records;
              var after := res.value.store.value.records;
              && res.value.store.value.(records := before) == w.store.value
              && |after| == |before| + TotalLength(Producers(w.outputs, order))
              && after[..|before|] == before
              && multiset(after[|before|..]) == multiset(Flatten(Producers(w.outputs, order)))
  {
    var live := Producers(w.outputs, order);
    var written := RoundRobin(live);
    RoundRobinWritesEachMessageOnce(live);
    if |written| == 0 then Success(w.(outputs := Exhausted(w.outputs)))
    else if w.store.None? then Failure(NullReference)
    else Success(Writer(Some(Append(w.store.value, written)), Exhausted(w.outputs)))
  }

  /** Every producer enumerated to its end. */
  function Exhausted(outputs: map<int, seq<Message>>): (r: map<int, seq<Message>>)
    ensures r.Keys == outputs.Keys
    ensures forall k :: k in r ==> |r[k]| == 0
  {
    map k | k in outputs :: []
  }

  /** The store after `Write` of each of `ms` in turn. */
  function Append(s: StoreWriter, ms: seq<Message>): (r: StoreWriter)
    ensures r.(records := s.records) == s
    ensures |r.records| == |s.records| + |ms|
    ensures r.records[..|s.records|] == s.records
    ensures r.records[|s.records|..] == ms
  {
    s.(records := s.records + ms)
  }

  /** The messages `WriteAll` appends to the store. */
  function Written(w: Writer, order: seq<int>): seq<Message>
    requires EnumeratesKeys(w.outputs, order)
    requires w.store.Some?
  {
    var cancel := CancellationToken(false);
    var after := WriteAll(w, order, ReplayAll, cancel).value.store.value.records;
    after[|w.store.value.records|..]
  }

  /** Neither the replay descriptor nor the cancellation token changes what
      `WriteAll` does: nothing is filtered by time or dropped on cancellation. */
  lemma WriteAllIgnoresDescriptorAndToken(w: Writer, order: seq<int>,
                                          d1: ReplayDescriptor, c1: CancellationToken,
                                          d2: ReplayDescriptor, c2: CancellationToken)
    requires EnumeratesKeys(w.outputs, order)
    ensures WriteAll(w, order, d1, c1) == WriteAll(w, order, d2, c2)
  {
  }

  /** Pass `p` of `WriteAll` writes the `p`-th message of every producer
      that still has one, in producer-list order; there are as many passes as
      the longest producer has messages, plus the final one in which the last
      producers report exhaustion. */
  lemma WriteAllRounds(w: Writer, order: seq<int>)
    requires EnumeratesKeys(w.outputs, order)
    requires w.store.Some?
    ensures var live := Producers(w.outputs, order);
            && Written(w, order) == Rounds(live, 0, MaxLength(live))
            && Passes(live) == if |order| == 0 then 0 else MaxLength(live) + 1
  {
    var live := Producers(w.outputs, order);
    RoundRobinIsRoundByRound(live);
    PassCount(live);
    var before := w.store.value.records;
    assert (before + RoundRobin(live))[|before|..] == RoundRobin(live);
  }

  /** A message together with the id of the stream whose producer yielded
      it; the writer does not record this, the model uses it to speak about
      the order within one stream. */
  datatype Sourced = Sourced(stream: int, message: Message)

  function Tagged(outputs: map<int, seq<Message>>, order: seq<int>): (live: seq<seq<Sourced>>)
    requires forall i :: 0 <= i < |order| ==> order[i] in outputs
    ensures |live| == |order|
    ensures forall i :: 0 <= i < |order| ==> live[i] == Map((m: Message) => Sourced(order[i], m), outputs[order[i]])
  {
    seq(|order|, i requires 0 <= i < |order| => Map((m: Message) => Sourced(order[i], m), outputs[order[i]]))
  }

  /** Within one stream, the order of the written messages is the order in
      which the stream's source enumerated them: the output of `WriteAll`,
      labelled with where each message came from, restricted to stream `id`,
      is exactly that stream's source. */
  lemma WriteAllKeepsStreamOrder(w: Writer, order: seq<int>, id: int)
    requires EnumeratesKeys(w.outputs, order)
    requires w.store.Some?
    requires id in w.outputs
    ensures var out := RoundRobin(Tagged(w.outputs, order));
            && Map((s: Sourced) => s.message, out) == Written(w, order)
            && Map((s: Sourced) => s.message, Filter((s: Sourced) => s.stream == id, out)) == w.outputs[id]
  {
    UntaggedIsWritten(w, order);
    var k :| 0 <= k < |order| && order[k] == id;
    TaggedStreamOrder(w.outputs, order, k);
  }

  lemma UntaggedIsWritten(w: Writer, order: seq<int>)
    requires EnumeratesKeys(w.outputs, order)
    requires w.store.Some?
    ensures Map((s: Sourced) => s.message, RoundRobin(Tagged(w.outputs, order))) == Written(w, order)
  {
    var live := Producers(w.outputs, order);
    var tagged := Tagged(w.outputs, order);
    var untag := (s: Sourced) => s.message;
    UntagEach(w.outputs, order);
    RoundRobinCommutesWithMap(untag, tagged);
    var before := w.store.value.records;
    assert (before + RoundRobin(live))[|before|..] == RoundRobin(live);
  }

  lemma UntagEach(outputs: map<int, seq<Message>>, order: seq<int>)
    requires forall i :: 0 <= i < |order| ==> order[i] in outputs
    ensures MapEach((s: Sourced) => s.message, Tagged(outputs, order)) == Producers(outputs, order)
  {
    var tagged := Tagged(outputs, order);
    var untag := (s: Sourced) => s.message;
    forall i | 0 <= i < |order|
      ensures MapEach(untag, tagged)[i] == Producers(outputs, order)[i]
    {
      UntagTag(order[i], outputs[order[i]]);
    }
  }

  lemma {:induction false} UntagTag(id: int, ms: seq<Message>)
    ensures Map((s: Sourced) => s.message, Map((m: Message) => Sourced(id, m), ms)) == ms
  {
    if |ms| > 0 {
      UntagTag(id, ms[1..]);
    }
  }

  lemma TaggedStreamOrder(outputs: map<int, seq<Message>>, order: seq<int>, k: nat)
    requires EnumeratesKeys(outputs, order)
    requires k < |order|
    ensures Map((s: Sourced) => s.message,
                Filter((s: Sourced) => s.stream == order[k], RoundRobin(Tagged(outputs, order))))
            == outputs[order[k]]
  {
    var tagged := Tagged(outputs, order);
    var keep := (s: Sourced) => s.stream == order[k];
    assert OwnedBy(keep, tagged, k);
    RoundRobinKeepsProducerOrder(keep, tagged, k);
    UntagTag(order[k], outputs[order[k]]);
  }

  /** After `WriteAll` every producer is exhausted, so a second `WriteAll`
      appends nothing. */
  lemma WriteAllTwiceWritesNothingMore(w: Writer, order: seq<int>, d: ReplayDescriptor, c: CancellationToken)
    requires EnumeratesKeys(w.outputs, order)
    requires w.store.Some?
    ensures var first := WriteAll(w, order, d, c);
            && first.Success?
            && EnumeratesKeys(first.value.outputs, order)
            && WriteAll(first.value, order, d, c) == first
  {
    var first := WriteAll(w, order, d, c).value;
    var live := Producers(first.outputs, order);
    assert forall i :: 0 <= i < |live| ==> |live[i]| == 0;
    NothingLeft(live);
  }

  lemma {:induction false} NothingLeft<T>(live: seq<seq<T>>)
    requires forall i :: 0 <= i < |live| ==> |live[i]| == 0
    ensures TotalLength(live) == 0
  {
    if |live| > 0 {
      NothingLeft(live[1..]);
    }
  }
}

=== FILE: store_reader.dfy ===
/** The JSON store reader (`JsonStoreReader`) as a pure state machine.

    The data file is a JSON array of two-field objects
    `{"Envelope": <Envelope>, "Data": <Data>}`, parsed token by token. The
    model works at record granularity: an `Item` is a well-formed record, a
    record whose envelope parsed but whose `Data` field does not follow, or a
    record whose first field is not a parsable `Envelope`. The token position
    of the underlying JSON reader becomes a `Cursor`. */
module StoreReader {
  import opened Wrappers
  import opened Time
  import opened StoreTypes
  import Catalog
  import opened EnabledStreams

  datatype Item =
    | Record(envelope: Envelope, data: Token)
    | DataMalformed(envelope: Envelope)
    | EnvelopeMalformed

  /** Where the JSON reader stands in the data file.
      - `Unopened`: no `Seek` yet, so there is no JSON reader at all;
      - `AtData(i)`: the envelope of item `i` has been read and the reader sits
        on that item's `Data` property;
      - `Between(i)`: items before `i` have been read completely;
      - `Lost(i)`: the reader stopped inside item `i` at a token the record
        framing does not expect (a malformed item, or `Read` called while the
        current record's data was still unread);
      - `AtEnd`: the closing bracket of the array or the end of the file. */
  datatype Cursor =
    | Unopened
    | AtData(index: nat)
    | Between(index: nat)
    | Lost(index: nat)
    | AtEnd

  /** The reader's fields. `file` is the content of the data file as the last
      `Seek` opened it; `envelope`, `data` and `hasMoreData` are the cached
      fields of the same names. */
  datatype Reader = Reader(
    catalog: seq<StreamMetadata>,
    originatingTimeInterval: TimeInterval,
    enabled: seq<int>,
    descriptor: ReplayDescriptor,
    file: seq<Item>,
    cursor: Cursor,
    hasMoreData: bool,
    envelope: Envelope,
    data: Option<Token>)

  /** Result of `MoveNext`: its return value, its `out` envelope, the new state. */
  datatype Step = Step(found: bool, envelope: Envelope, reader: Reader)

  /** Result of `Read`: its return value, its `out` data, the new state. */
  datatype ReadOut = ReadOut(more: bool, data: Option<Token>, reader: Reader)

  /** The invariant every reachable reader state satisfies. */
  predicate Valid(r: Reader) {
    && NoDuplicates(r.enabled)
    && match r.cursor
       case Unopened => !r.hasMoreData
       case AtData(i) =>
         && i < |r.file|
         && !r.file[i].EnvelopeMalformed?
         && r.file[i].envelope == r.envelope
         && Catalog.HasId(r.catalog, r.envelope.sourceId)
         && r.hasMoreData
       case Between(i) => i <= |r.file|
       case Lost(i) => i < |r.file| && !r.hasMoreData
       case AtEnd => true
  }

  /** How far into the file the cursor stands. */
  function Position(r: Reader): nat {
    match r.cursor
    case Unopened => 0
    case AtData(i) => i
    case Between(i) => i
    case Lost(i) => i
    case AtEnd => |r.file|
  }

  /** A measure of the work left before the end of the file; reading an
      envelope or a payload always lowers it. */
  function Pending(r: Reader): nat {
    match r.cursor
    case AtData(i) => if i < |r.file| then 2 * (|r.file| - i) + 1 else 0
    case Between(i) => if i <= |r.file| then 2 * (|r.file| - i) + 2 else 0
    case _ => 0
  }

  /** The fields a read never changes. */
  predicate SameStore(r: Reader, s: Reader) {
    && s.catalog == r.catalog
    && s.originatingTimeInterval == r.originatingTimeInterval
    && s.descriptor == r.descriptor
    && s.file == r.file
  }

  /** The filter of `MoveNext`: the governing time lies in the replay window
      and the envelope's stream is enabled. */
  predicate Selected(d: ReplayDescriptor, enabled: seq<int>, e: Envelope) {
    PointIsWithin(d.interval, GoverningTime(d, e)) && e.sourceId in enabled
  }

  /** The enabled list once `MoveNext` has stepped over a record with
      envelope `e`: the record's stream is closed when it lies past the
      window's right bound. */
  function AutoClose(d: ReplayDescriptor, enabled: seq<int>, e: Envelope): seq<int> {
    if d.interval.right < GoverningTime(d, e) then RemoveFirst(enabled, e.sourceId) else enabled
  }

  /** The enabled list in force after `MoveNext` has stepped over the
      well-formed records of `items` in order. */
  function ClosedAlong(d: ReplayDescriptor, enabled: seq<int>, items: seq<Item>): seq<int>
    decreases |items|
  {
    if |items| == 0 then enabled
    else if items[0].Record? then ClosedAlong(d, AutoClose(d, enabled, items[0].envelope), items[1..])
    else ClosedAlong(d, enabled, items[1..])
  }

  /** The constructor, once the catalog has been loaded and validated. */
  function Open(catalog: seq<StreamMetadata>): (r: Reader)
    ensures Valid(r)
    ensures r.catalog == catalog && |r.enabled| == 0 && r.cursor == Unopened
    ensures r.originatingTimeInterval == Catalog.OriginatingTimeInterval(catalog)
  {
    Reader(catalog, Catalog.OriginatingTimeInterval(catalog), [], ReplayAll, [],
           Unopened, false, DefaultEnvelope, None)
  }

  // ---------------------------------------------------------------------
  // Enabling and disabling streams
  // ---------------------------------------------------------------------

  /** `OpenStream(JsonStreamMetadata)`: a null metadata is rejected; an id
      already enabled answers false and changes nothing; otherwise the id is
      appended and the answer is true. */
  function OpenStream(r: Reader, metadata: Option<StreamMetadata>): (res: Result<(bool, Reader), Error>)
    ensures res.Failure? <==> metadata.None?
    ensures res.Failure? ==> res.error == ArgumentNull("metadata")
    ensures res.Success? && metadata.value.id in r.enabled ==> res.value == (false, r)
    ensures res.Success? && metadata.value.id !in r.enabled ==>
              var s := res.value.1;
              && res.value.0
              && |s.enabled| == |r.enabled| + 1
              && s.enabled[..|r.enabled|] == r.enabled
              && s.enabled[|r.enabled|] == metadata.value.id
              && s.(enabled := r.enabled) == r
    ensures res.Success? && Valid(r) ==> Valid(res.value.1)
  {
    if metadata.None? then Failure(ArgumentNull("metadata"))
    else
      var id := metadata.value.id;
      Success((id !in r.enabled, r.(enabled := Enable(r.enabled, id))))
  }

  /** `OpenStream(string)`: looks the stream up by name, enables it and
      returns its metadata. */
  function OpenStreamByName(r: Reader, streamName: Option<string>): (res: Result<(StreamMetadata, Reader), Error>)
    ensures res.Failure? <==> Catalog.GetMetadataByName(r.catalog, streamName).Failure?
    ensures res.Failure? ==> res.error == Catalog.GetMetadataByName(r.catalog, streamName).error
    ensures res.Success? ==>
              && Catalog.GetMetadataByName(r.catalog, streamName) == Success(res.value.0)
              && res.value.0.id in res.value.1.enabled
              && (res.value.0.id in r.enabled ==> res.value.1 == r)
              && res.value.1.(enabled := r.enabled) == r
    ensures res.Success? && Valid(r) ==> Valid(res.value.1)
  {
    var metadata :- Catalog.GetMetadataByName(r.catalog, streamName);
    Success((metadata, OpenStream(r, Some(metadata)).value.1))
  }

  /** `OpenStream(int)`: looks the stream up by id, enables it and returns
      its metadata. */
  function OpenStreamById(r: Reader, id: int): (res: Result<(StreamMetadata, Reader), Error>)
    ensures res.Failure? <==> !Catalog.HasId(r.catalog, id)
    ensures res.Failure? ==> res.error == Argument("id")
    ensures res.Success? ==>
              && res.value.0.id == id
              && Catalog.GetMetadataById(r.catalog, id) == Success(res.value.0)
              && id in res.value.1.enabled
              && (id in r.enabled ==> res.value.1 == r)
              && res.value.1.(enabled := r.enabled) == r
    ensures res.Success? && Valid(r) ==> Valid(res.value.1)
  {
    var metadata :- Catalog.GetMetadataById(r.catalog, id);
    Success((metadata, OpenStream(r, Some(metadata)).value.1))
  }

  /** `CloseStream(int)`: removes the id from the enabled list; an id that is
      not there leaves the reader unchanged. */
  function CloseStream(r: Reader, id: int): (s: Reader)
    ensures id !in r.enabled ==> s == r
    ensures forall x :: x != id ==> (x in s.enabled <==> x in r.enabled)
    ensures s.(enabled := r.enabled) == r
    ensures Valid(r) ==> Valid(s) && id !in s.enabled
  {
    r.(enabled := RemoveFirst(r.enabled, id))
  }

  /** `CloseStream(string)`: looks the stream up by name, then closes its id. */
  function CloseStreamByName(r: Reader, streamName: Option<string>): (res: Result<Reader, Error>)
    ensures res.Failure? <==> Catalog.GetMetadataByName(r.catalog, streamName).Failure?
    ensures res.Failure? ==> res.error == Catalog.GetMetadataByName(r.catalog, streamName).error
    ensures res.Success? ==>
              var id := Catalog.GetMetadataByName(r.catalog, streamName).value.id;
              && (forall x :: x != id ==> (x in res.value.enabled <==> x in r.enabled))
              && res.value.(enabled := r.enabled) == r
              && (Valid(r) ==> Valid(res.value) && id !in res.value.enabled)
  {
    var metadata :- Catalog.GetMetadataByName(r.catalog, streamName);
    Success(CloseStream(r, metadata.id))
  }

  /** `CloseAllStreams`: empties the enabled list and nothing else. */
  function CloseAllStreams(r: Reader): (s: Reader)
    ensures |s.enabled| == 0
    ensures s.(enabled := r.enabled) == r
    ensures Valid(r) ==> Valid(s)
  {
    r.(enabled := [])
  }

  // ---------------------------------------------------------------------
  // Record-level parsing primitives
  // ---------------------------------------------------------------------

  /** The private `ReadData`, as `MoveNext` uses it while `hasMoreData` holds:
      on the `Data` property of a well-formed record it caches the payload and
      moves past the record; anywhere else it fails, clearing the cache. */
  function ReadData(r: Reader): (s: Reader)
    requires Valid(r) && r.hasMoreData
    ensures Valid(s) && SameStore(r, s) && s.enabled == r.enabled && s.envelope == r.envelope
    ensures s.hasMoreData <==> r.cursor.AtData? && r.file[r.cursor.index].Record?
    ensures s.hasMoreData ==> s.cursor == Between(r.cursor.index + 1)
                              && s.data == Some(r.file[r.cursor.index].data)
    ensures !s.hasMoreData ==> s.data.None? && Position(s) == Position(r)
  {
    match r.cursor
    case AtData(i) =>
      if r.file[i].Record? then r.(cursor := Between(i + 1), data := Some(r.file[i].data), hasMoreData := true)
      else r.(cursor := Lost(i), data := None, hasMoreData := false)
    case _ => r.(data := None, hasMoreData := false)
  }

  /** "Read closing object, opening object tags, envelope": the step shared by
      `MoveNext` and `Read`. Between two records it reads the next envelope,
      rejecting a stream id the catalog does not know; at the end of the array
      it answers false. A malformed envelope, or a call made while the current
      record's data is still unread, leaves the reader `Lost` with the
      envelope reset to its default. Before any `Seek` there is no JSON
      reader to read from. */
  function NextEnvelope(r: Reader): (res: Result<Reader, Error>)
    requires Valid(r)
  {
    match r.cursor
    case Unopened => Failure(NullReference)
    case Between(i) =>
      if i == |r.file| then Success(r.(cursor := AtEnd, hasMoreData := false))
      else if r.file[i].EnvelopeMalformed? then
        Success(r.(cursor := Lost(i), hasMoreData := false, envelope := DefaultEnvelope))
      else if Catalog.FirstWithId(r.catalog, r.file[i].envelope.sourceId).None? then Failure(InvalidData)
      else Success(r.(cursor := AtData(i), hasMoreData := true, envelope := r.file[i].envelope))
    case AtData(i) => Success(r.(cursor := Lost(i), hasMoreData := false, envelope := DefaultEnvelope))
    case Lost(_) => Success(r.(hasMoreData := false))
    case AtEnd => Success(r.(hasMoreData := false))
  }

  /** What one envelope step does: it fails before any `Seek` and on an
      envelope naming a stream the catalog lacks; it finds more data exactly
      when a record's envelope follows, and then stands on that record's
      data; a malformed envelope resets the cached envelope to its default.
      The enabled list and the cached payload are untouched. */
  lemma NextEnvelopeReads(r: Reader)
    requires Valid(r)
    ensures NextEnvelope(r).Failure? <==>
              || r.cursor.Unopened?
              || (&& r.cursor.Between? && r.cursor.index < |r.file|
                  && !r.file[r.cursor.index].EnvelopeMalformed?
                  && !Catalog.HasId(r.catalog, r.file[r.cursor.index].envelope.sourceId))
    ensures NextEnvelope(r).Failure? ==>
              NextEnvelope(r).error == (if r.cursor.Unopened? then NullReference else InvalidData)
    ensures NextEnvelope(r).Success? ==>
              var s := NextEnvelope(r).value;
              && Valid(s) && SameStore(r, s) && s.enabled == r.enabled && s.data == r.data
              && (s.hasMoreData <==> r.cursor.Between? && r.cursor.index < |r.file|
                                     && !r.file[r.cursor.index].EnvelopeMalformed?)
              && (s.hasMoreData ==> s.cursor == AtData(r.cursor.index) && s.envelope == r.file[r.cursor.index].envelope)
              && (r.cursor.Between? && r.cursor.index < |r.file| && r.file[r.cursor.index].EnvelopeMalformed? ==>
                    s.envelope == DefaultEnvelope)
  {
  }

  // ---------------------------------------------------------------------
  // Seek
  // ---------------------------------------------------------------------

  /** An item `Seek` steps over: a well-formed record of a catalog stream
      whose governing time is not after the window's left bound. */
  predicate Skippable(catalog: seq<StreamMetadata>, d: ReplayDescriptor, item: Item) {
    && item.Record?
    && Catalog.HasId(catalog, item.envelope.sourceId)
    && GoverningTime(d, item.envelope) <= d.interval.left
  }

  /** An item `Seek` stops on: its envelope parses, names a catalog stream
      and its governing time is strictly after the window's left bound. */
  predicate Lands(catalog: seq<StreamMetadata>, d: ReplayDescriptor, item: Item) {
    && !item.EnvelopeMalformed?
    && Catalog.HasId(catalog, item.envelope.sourceId)
    && d.interval.left < GoverningTime(d, item.envelope)
  }

  /** An item that makes `Seek` throw `InvalidDataException`. */
  predicate Faulty(catalog: seq<StreamMetadata>, d: ReplayDescriptor, item: Item) {
    || item.EnvelopeMalformed?
    || !Catalog.HasId(catalog, item.envelope.sourceId)
    || (item.DataMalformed? && GoverningTime(d, item.envelope) <= d.interval.left)
  }

  /** The scanning loop of `Seek`, from item `i` on. */
  function SeekFrom(r: Reader, i: nat): (res: Result<Reader, Error>)
    requires i <= |r.file|
    ensures res.Success? ==>
              var s := res.value;
              && SameStore(r, s) && s.enabled == r.enabled
              && (s.cursor.AtData? || s.cursor.AtEnd?)
              && (s.cursor.AtData? ==>
                    && i <= s.cursor.index < |r.file|
                    && Lands(r.catalog, r.descriptor, r.file[s.cursor.index])
                    && s.envelope == r.file[s.cursor.index].envelope
                    && s.hasMoreData)
              && forall j :: i <= j < Position(s) ==> Skippable(r.catalog, r.descriptor, r.file[j])
    ensures res.Failure? ==>
              && res.error == InvalidData
              && exists j :: i <= j < |r.file|
                             && Faulty(r.catalog, r.descriptor, r.file[j])
                             && forall k :: i <= k < j ==> Skippable(r.catalog, r.descriptor, r.file[k])
    decreases |r.file| - i
  {
    if i == |r.file| then Success(r.(cursor := AtEnd))
    else if r.file[i].EnvelopeMalformed? then Failure(InvalidData)
    else
      var e := r.file[i].envelope;
      if Catalog.FirstWithId(r.catalog, e.sourceId).None? then Failure(InvalidData)
      else
        var r1 := r.(envelope := e, hasMoreData := true);
        if r.descriptor.interval.left < GoverningTime(r.descriptor, e) then Success(r1.(cursor := AtData(i)))
        else if r.file[i].DataMalformed? then Failure(InvalidData)
        else SeekFrom(r1.(data := Some(r.file[i].data)), i + 1)
  }

  /** `Seek(descriptor)`: installs the descriptor, reopens the data file from
      its start and stops on the first record whose governing time is
      strictly after the window's left bound, having stepped over every
      record before it; a malformed record, or an envelope naming a stream
      the catalog lacks, met on the way is an `InvalidDataException`. */
  function Seek(r: Reader, descriptor: ReplayDescriptor, file: seq<Item>): (res: Result<Reader, Error>)
    ensures res.Success? ==>
              var s := res.value;
              && s.descriptor == descriptor && s.file == file
              && s.catalog == r.catalog && s.enabled == r.enabled
              && s.originatingTimeInterval == r.originatingTimeInterval
              && (NoDuplicates(r.enabled) ==> Valid(s))
              && match s.cursor
                 case AtData(i) =>
                   && i < |file|
                   && Lands(r.catalog, descriptor, file[i])
                   && s.envelope == file[i].envelope
                   && forall j :: 0 <= j < i ==> Skippable(r.catalog, descriptor, file[j])
                 case AtEnd =>
                   forall j :: 0 <= j < |file| ==> Skippable(r.catalog, descriptor, file[j])
                 case _ => false
    ensures res.Failure? ==>
              && res.error == InvalidData
              && exists j :: 0 <= j < |file|
                             && Faulty(r.catalog, descriptor, file[j])
                             && forall k :: 0 <= k < j ==> Skippable(r.catalog, descriptor, file[k])
  {
    SeekFrom(r.(descriptor := descriptor, file := file, cursor := Between(0)), 0)
  }

  // ---------------------------------------------------------------------
  // MoveNext and Read
  // ---------------------------------------------------------------------

  /** The records a call of `MoveNext` that started on the `Data` property of
      a record stepped over, as a half-open range of item positions. */
  function SkippedRange(r: Reader, step: Step): (nat, nat)
    requires r.cursor.AtData?
  {
    (r.cursor.index, if step.found && Position(step.reader) > 0 then Position(step.reader) - 1 else Position(step.reader))
  }

  /** Every record stepped over was well-formed and failed the filter under
      the enabled list in force when it was read, that is, the list the call
      started with less the auto-closes of the records stepped over before
      it; the call ends with the auto-closes of all of them applied, and it
      reads a further record only while some stream is still enabled. */
  predicate SkippedRecords(r: Reader, step: Step)
    requires r.cursor.AtData?
  {
    var (start, stop) := SkippedRange(r, step);
    var d := r.descriptor;
    && start <= stop <= |r.file|
    && (forall j :: start <= j < stop ==> r.file[j].Record?)
    && (forall j :: start <= j < stop ==>
          !Selected(d, ClosedAlong(d, r.enabled, r.file[start..j]), r.file[j].envelope))
    && step.reader.enabled == ClosedAlong(d, r.enabled, r.file[start..stop])
    && (forall j :: start < j < stop ==> |ClosedAlong(d, r.enabled, r.file[start..j])| > 0)
  }

  /** A stream closed during the call is the stream of a record stepped over
      whose governing time was past the window's right bound. */
  predicate ClosedOnlyPastWindow(r: Reader, step: Step)
    requires r.cursor.AtData?
  {
    var (start, stop) := SkippedRange(r, step);
    start <= stop <= |r.file| &&
    forall id :: id in r.enabled && id !in step.reader.enabled ==>
      exists j :: start <= j < stop
                  && r.file[j].Record?
                  && r.file[j].envelope.sourceId == id
                  && r.descriptor.interval.right < GoverningTime(r.descriptor, r.file[j].envelope)
  }

  /** `MoveNext(out Envelope)`: advances to the next record that passes the
      filter, closing the stream of every record met past the window's right
      bound. It answers false once the data runs out, a record turns out to be
      malformed, or the enabled list is empty. */
  function MoveNext(r: Reader): (res: Result<Step, Error>)
    requires Valid(r)
    ensures res.Failure? ==> res.error == InvalidData
    ensures res.Success? ==>
              var s := res.value.reader;
              && Valid(s) && SameStore(r, s)
              && (forall id :: id in s.enabled ==> id in r.enabled)
              && Pending(s) <= Pending(r)
    ensures res.Success? && res.value.found ==>
              var s := res.value.reader;
              && Selected(r.descriptor, s.enabled, res.value.envelope)
              && s.cursor.Between? && 0 < s.cursor.index
              && s.data.Some? && s.hasMoreData && s.envelope == res.value.envelope
              && s.file[s.cursor.index - 1] == Record(res.value.envelope, s.data.value)
              && Pending(s) < Pending(r)
    ensures res.Success? && !res.value.found ==>
              !res.value.reader.hasMoreData || |res.value.reader.enabled| == 0
    decreases Pending(r)
  {
    if !r.hasMoreData then Success(Step(false, r.envelope, r))
    else
      var t := GoverningTime(r.descriptor, r.envelope);
      var r1 := ReadData(r);
      if !r1.hasMoreData then Success(Step(false, r.envelope, r1))
      else if PointIsWithin(r.descriptor.interval, t) && r.envelope.sourceId in r1.enabled then
        Success(Step(true, r.envelope, r1))
      else
        var r3 :- Advance(r);
        if |r3.enabled| > 0 then MoveNext(r3)
        else Success(Step(false, r.envelope, r3))
  }

  /** The state after the payload of a skipped record has been read and its
      stream closed if it lies past the window. */
  function Closing(r: Reader): (s: Reader)
    requires Valid(r) && r.hasMoreData && r.cursor.AtData? && r.file[r.cursor.index].Record?
    ensures Valid(s) && SameStore(r, s) && s.cursor == Between(r.cursor.index + 1)
    ensures s.enabled == AutoClose(r.descriptor, r.enabled, r.envelope)
    ensures forall x :: x in s.enabled <==>
              x in r.enabled && !(x == r.envelope.sourceId && r.descriptor.interval.right < GoverningTime(r.descriptor, r.envelope))
  {
    var r1 := ReadData(r);
    if r.descriptor.interval.right < GoverningTime(r.descriptor, r.envelope) then CloseStream(r1, r.envelope.sourceId) else r1
  }

  /** The rest of a turn of the `MoveNext` loop that does not return, from the
      `Data` of a well-formed record: the payload is read, the stream closed
      if the record lies past the window, and the next envelope read. It
      fails only on a next envelope naming a stream the catalog lacks. */
  function Advance(r: Reader): (res: Result<Reader, Error>)
    requires Valid(r) && r.hasMoreData && r.cursor.AtData? && r.file[r.cursor.index].Record?
    ensures res.Failure? <==>
              var i := r.cursor.index;
              && i + 1 < |r.file| && !r.file[i + 1].EnvelopeMalformed?
              && !Catalog.HasId(r.catalog, r.file[i + 1].envelope.sourceId)
    ensures res.Failure? ==> res.error == InvalidData
    ensures res.Success? ==>
              var s := res.value;
              && Valid(s) && SameStore(r, s) && Pending(s) < Pending(r)
              && s.enabled == AutoClose(r.descriptor, r.enabled, r.envelope)
              && (forall x :: x in s.enabled <==>
                    x in r.enabled && !(x == r.envelope.sourceId && r.descriptor.interval.right < GoverningTime(r.descriptor, r.envelope)))
              && (s.hasMoreData ==> s.cursor == AtData(r.cursor.index + 1))
              && (!s.hasMoreData ==> Position(s) == r.cursor.index + 1)
  {
    NextEnvelope(Closing(r))
  }

  /** One turn of the `MoveNext` loop that does not return: the record under
      the cursor fails the filter, so the loop advances and goes round again
      while some stream is enabled. */
  lemma MoveNextLoops(r: Reader)
    requires Valid(r) && r.hasMoreData && r.cursor.AtData?
    requires r.file[r.cursor.index].Record?
    requires !Selected(r.descriptor, r.enabled, r.envelope)
    requires Advance(r).Success?
    ensures var r3 := Advance(r).value;
            MoveNext(r) == (if |r3.enabled| > 0 then MoveNext(r3) else Success(Step(false, r.envelope, r3)))
  {
  }

  /** The turn of the `MoveNext` loop that returns at once: the record under
      the cursor is malformed after its envelope, or passes the filter. */
  lemma MoveNextReturns(r: Reader)
    requires Valid(r) && r.hasMoreData && r.cursor.AtData?
    requires !r.file[r.cursor.index].Record? || Selected(r.descriptor, r.enabled, r.envelope)
    ensures MoveNext(r) == Success(Step(r.file[r.cursor.index].Record?, r.envelope, ReadData(r)))
    ensures Position(ReadData(r)) == if r.file[r.cursor.index].Record? then r.cursor.index + 1 else r.cursor.index
  {
  }

  /** On a record that passes the filter `MoveNext` answers true at once,
      handing back that record's envelope and payload and standing after it;
      on a record whose `Data` is malformed it answers false and stands on
      that record. Neither turn changes the enabled list. */
  lemma MoveNextStopsAt(r: Reader)
    requires Valid(r) && r.hasMoreData && r.cursor.AtData?
    requires !r.file[r.cursor.index].Record? || Selected(r.descriptor, r.enabled, r.envelope)
    ensures MoveNext(r).Success?
    ensures var step := MoveNext(r).value;
            var i := r.cursor.index;
            && step.found == r.file[i].Record?
            && step.reader.enabled == r.enabled
            && (step.found ==> && step.envelope == r.file[i].envelope
                               && step.reader.data == Some(r.file[i].data)
                               && Position(step.reader) == i + 1)
            && (!step.found ==> !step.reader.hasMoreData && Position(step.reader) == i)
  {
    MoveNextReturns(r);
  }

  /** Stepping over a well-formed record applies its auto-close first. */
  lemma ClosedAlongFront(d: ReplayDescriptor, enabled: seq<int>, file: seq<Item>, i: nat, j: nat)
    requires i < j <= |file| && file[i].Record?
    ensures ClosedAlong(d, enabled, file[i..j]) == ClosedAlong(d, AutoClose(d, enabled, file[i].envelope), file[i + 1..j])
  {
    assert file[i..j][0] == file[i];
    assert file[i..j][1..] == file[i + 1..j];
  }

  /** `MoveNext` stops on the first record that passes the filter under the
      enabled list in force when it is read: every record stepped over is
      well-formed and fails the filter after the auto-closes of the records
      before it, and the call ends with all of their auto-closes applied. */
  lemma {:induction false} MoveNextSkips(r: Reader)
    requires Valid(r) && r.hasMoreData && r.cursor.AtData?
    requires MoveNext(r).Success?
    ensures SkippedRecords(r, MoveNext(r).value)
    decreases Pending(r), 1
  {
    var i := r.cursor.index;
    if r.file[i].Record? && !Selected(r.descriptor, r.enabled, r.envelope) {
      MoveNextSkipsOver(r);
    } else {
      MoveNextReturns(r);
      assert r.file[i..i] == [];
    }
  }

  /** `MoveNextSkips` for a call that steps over the record under the cursor. */
  lemma {:induction false} MoveNextSkipsOver(r: Reader)
    requires Valid(r) && r.hasMoreData && r.cursor.AtData?
    requires r.file[r.cursor.index].Record? && !Selected(r.descriptor, r.enabled, r.envelope)
    requires MoveNext(r).Success?
    ensures SkippedRecords(r, MoveNext(r).value)
    decreases Pending(r), 0
  {
    var i := r.cursor.index;
    var d := r.descriptor;
    MoveNextLoops(r);
    var r3 := Advance(r).value;
    var step := MoveNext(r).value;
    if |r3.enabled| > 0 && r3.hasMoreData {
      MoveNextSkips(r3);
      SkippedRecordsFront(r, r3, step);
    } else {
      assert step.reader == r3 && !step.found;
      SkippedRecordsLast(r, r3, step);
    }
  }

  /** A call that stops right after stepping over the record under the
      cursor has stepped over that record alone. */
  lemma SkippedRecordsLast(r: Reader, r3: Reader, step: Step)
    requires r.cursor.AtData? && r.cursor.index < |r.file|
    requires r.file[r.cursor.index].Record? && r.file[r.cursor.index].envelope == r.envelope
    requires !Selected(r.descriptor, r.enabled, r.envelope)
    requires r3.file == r.file && Position(r3) == r.cursor.index + 1
    requires r3.enabled == AutoClose(r.descriptor, r.enabled, r.envelope)
    requires step.reader == r3 && !step.found
    ensures SkippedRecords(r, step)
  {
    var i := r.cursor.index;
    var d := r.descriptor;
    assert r3.enabled == ClosedAlong(d, r.enabled, r.file[i..i + 1]) by {
      ClosedAlongFront(d, r.enabled, r.file, i, i + 1);
      assert r.file[i + 1..i + 1] == [];
    }
    assert r.file[i..i] == [];
  }

  /** A record that fails the filter, stepped over ahead of the records a
      later call steps over, extends that call's `SkippedRecords`. */
  lemma SkippedRecordsFront(r: Reader, r3: Reader, step: Step)
    requires r.cursor.AtData? && r.cursor.index < |r.file|
    requires r.file[r.cursor.index].Record? && r.file[r.cursor.index].envelope == r.envelope
    requires !Selected(r.descriptor, r.enabled, r.envelope)
    requires r3.cursor == AtData(r.cursor.index + 1) && r3.file == r.file && r3.descriptor == r.descriptor
    requires r3.enabled == AutoClose(r.descriptor, r.enabled, r.envelope) && |r3.enabled| > 0
    requires SkippedRecords(r3, step)
    ensures SkippedRecords(r, step)
  {
    var i := r.cursor.index;
    var d := r.descriptor;
    var (_, stop) := SkippedRange(r, step);
    assert step.reader.enabled == ClosedAlong(d, r.enabled, r.file[i..stop]) by {
      ClosedAlongFront(d, r.enabled, r.file, i, stop);
    }
    forall j | i <= j < stop
      ensures !Selected(d, ClosedAlong(d, r.enabled, r.file[i..j]), r.file[j].envelope)
    {
      if j == i {
        assert r.file[i..i] == [];
      } else {
        ClosedAlongFront(d, r.enabled, r.file, i, j);
      }
    }
    forall j | i < j < stop
      ensures |ClosedAlong(d, r.enabled, r.file[i..j])| > 0
    {
      ClosedAlongFront(d, r.enabled, r.file, i, j);
      if j == i + 1 {
        assert r.file[i + 1..i + 1] == [];
      }
    }
  }

  /** `MoveNext` answers false with some stream still enabled only at the
      end of the data or on an item it cannot read: it never gives up ahead
      of a well-formed record while a stream is enabled. */
  lemma {:induction false} MoveNextFalseOnlyAtEndOrMalformed(r: Reader)
    requires Valid(r) && r.hasMoreData && r.cursor.AtData?
    requires MoveNext(r).Success? && !MoveNext(r).value.found
    ensures var s := MoveNext(r).value.reader;
            var stop := Position(s);
            stop <= |r.file| && (|s.enabled| == 0 || stop == |r.file| || !r.file[stop].Record?)
    decreases Pending(r)
  {
    var i := r.cursor.index;
    if !r.file[i].Record? {
      MoveNextReturns(r);
    } else if Selected(r.descriptor, r.enabled, r.envelope) {
      MoveNextReturns(r);
      assert false;
    } else {
      MoveNextLoops(r);
      var r3 := Advance(r).value;
      if |r3.enabled| > 0 {
        if r3.hasMoreData {
          MoveNextFalseOnlyAtEndOrMalformed(r3);
        } else {
          NextEnvelopeReads(Closing(r));
        }
      }
    }
  }

  /** `MoveNext` closes no stream other than those of the records it steps
      over past the window's right bound. */
  lemma {:induction false} MoveNextClosesOnlyPastWindow(r: Reader)
    requires Valid(r) && r.hasMoreData && r.cursor.AtData?
    requires MoveNext(r).Success?
    ensures ClosedOnlyPastWindow(r, MoveNext(r).value)
    decreases Pending(r)
  {
    var i := r.cursor.index;
    var d := r.descriptor;
    if r.file[i].Record? && !Selected(d, r.enabled, r.envelope) {
      MoveNextLoops(r);
      var r3 := Advance(r).value;
      var step := MoveNext(r).value;
      var (_, stop) := SkippedRange(r, step);
      if |r3.enabled| > 0 && r3.hasMoreData {
        MoveNextClosesOnlyPastWindow(r3);
        forall id | id in r.enabled && id !in step.reader.enabled
          ensures exists j :: i <= j < stop
                              && r.file[j].Record?
                              && r.file[j].envelope.sourceId == id
                              && d.interval.right < GoverningTime(d, r.file[j].envelope)
        {
          if id in r3.enabled {
            var j :| i + 1 <= j < stop
                     && r.file[j].Record?
                     && r.file[j].envelope.sourceId == id
                     && d.interval.right < GoverningTime(d, r.file[j].envelope);
          } else {
            assert r.file[i].envelope.sourceId == id;
          }
        }
      } else {
        forall id | id in r.enabled && id !in step.reader.enabled
          ensures exists j :: i <= j < stop
                              && r.file[j].Record?
                              && r.file[j].envelope.sourceId == id
                              && d.interval.right < GoverningTime(d, r.file[j].envelope)
        {
          assert r.file[i].envelope.sourceId == id;
        }
      }
    } else {
      MoveNextReturns(r);
    }
  }

  /** `Read(out JToken)`: reads the next record's envelope, bypassing the
      filter, and hands back the payload cached by the previous `MoveNext`. */
  function Read(r: Reader): (res: Result<ReadOut, Error>)
    requires Valid(r)
    ensures res.Failure? <==>
              || r.cursor.Unopened?
              || (&& r.cursor.Between? && r.cursor.index < |r.file|
                  && !r.file[r.cursor.index].EnvelopeMalformed?
                  && !Catalog.HasId(r.catalog, r.file[r.cursor.index].envelope.sourceId))
    ensures res.Failure? ==> res.error == (if r.cursor.Unopened? then NullReference else InvalidData)
    ensures res.Success? ==>
              var s := res.value.reader;
              && res.value.data == r.data
              && res.value.more == s.hasMoreData
              && Valid(s) && SameStore(r, s) && s.enabled == r.enabled && s.data == r.data
              && Pending(s) <= Pending(r)
    ensures res.Success? ==>
              (res.value.more <==> r.cursor.Between? && r.cursor.index < |r.file|
                                   && !r.file[r.cursor.index].EnvelopeMalformed?)
    ensures res.Success? && res.value.more ==>
              && res.value.reader.cursor == AtData(r.cursor.index)
              && res.value.reader.envelope == r.file[r.cursor.index].envelope
  {
    var s :- NextEnvelope(r);
    Success(ReadOut(s.hasMoreData, r.data, s))
  }
}

=== FILE: store_types.dfy ===
/** Value types shared by the store reader and the simple writer: envelopes,
    stream metadata, replay descriptors, opaque payload tokens and the
    exceptions the two components raise. */
module StoreTypes {
  import opened Time

  /** Per-message metadata, written ahead of its payload. */
  datatype Envelope = Envelope(sourceId: int, time: Ticks, originatingTime: Ticks, sequenceId: int)

  /** `default(Envelope)`: every field zero. */
  const DefaultEnvelope: Envelope := Envelope(0, 0, 0, 0)

  /** A payload in its serialized JSON form (a `JToken`); the store never
      looks inside it. */
  datatype Token = Token(json: string)

  /** A `Message<T>` as a source of the simple writer yields it, with its
      payload already converted to a token. */
  datatype Message = Message(envelope: Envelope, data: Token)

  /** A catalog entry (`JsonStreamMetadata`). */
  datatype StreamMetadata = StreamMetadata(
    id: int,
    name: string,
    firstMessageOriginatingTime: Ticks,
    lastMessageOriginatingTime: Ticks)

  /** The interval spanned by a stream's first and last message. */
  function Span(m: StreamMetadata): TimeInterval {
    TimeInterval(m.firstMessageOriginatingTime, m.lastMessageOriginatingTime)
  }

  /** Which envelope time governs filtering, and the inclusive window. */
  datatype ReplayDescriptor = ReplayDescriptor(interval: TimeInterval, useOriginatingTime: bool)

  /** `ReplayDescriptor.ReplayAll`: the whole time line, by originating time. */
  const ReplayAll: ReplayDescriptor := ReplayDescriptor(Infinite, true)

  /** The timestamp of `e` that the descriptor filters on. */
  function GoverningTime(d: ReplayDescriptor, e: Envelope): Ticks {
    if d.useOriginatingTime then e.originatingTime else e.time
  }

  /** The exceptions raised by the modelled operations, with the parameter
      name they carry where the source passes one. */
  datatype Error =
    | ArgumentNull(param: string)       // ArgumentNullException
    | Argument(param: string)           // ArgumentException
    | InvalidData                       // InvalidDataException
    | NullReference                     // use of a member before it was initialised
}

=== FILE: time.dfy ===
/** Timestamps and time intervals.

    Timestamps are .NET `DateTime` values counted in ticks. The
    `TimeInterval` class is not part of this model; this module gives it
    exactly the behaviour the store reader relies on: inclusive bounds for
    `PointIsWithin`, `Coverage` as the smallest covering interval (minimum of
    the left bounds, maximum of the right bounds) and `Empty` as the identity
    of `Coverage`. */
module Time {

  /** `DateTime.MinValue.Ticks` and `DateTime.MaxValue.Ticks`. */
  const MinTicks: int := 0
  const MaxTicks: int := 3155378975999999999

  type Ticks = t: int | MinTicks <= t <= MaxTicks

  datatype TimeInterval = TimeInterval(left: Ticks, right: Ticks)

  /** The interval that contains no point: its left bound lies after its
      right bound, so that it is neutral for the minimum/maximum of `Coverage`. */
  const Empty: TimeInterval := TimeInterval(MaxTicks as Ticks, MinTicks as Ticks)

  /** Every representable point: `TimeInterval.Infinite`. */
  const Infinite: TimeInterval := TimeInterval(MinTicks as Ticks, MaxTicks as Ticks)

  /** Both bounds are inclusive. */
  predicate PointIsWithin(i: TimeInterval, t: Ticks) {
    i.left <= t <= i.right
  }

  /** `a` lies within `b` (both bounds inclusive). */
  predicate Within(a: TimeInterval, b: TimeInterval) {
    b.left <= a.left && a.right <= b.right
  }

  function Min(a: Ticks, b: Ticks): Ticks {
    if a <= b then a else b
  }

  function Max(a: Ticks, b: Ticks): Ticks {
    if a <= b then b else a
  }

  /** Coverage of two intervals: the smallest interval whose bounds enclose both. */
  function Coverage(a: TimeInterval, b: TimeInterval): (c: TimeInterval)
    ensures Within(a, c) && Within(b, c)
    ensures c.left == a.left || c.left == b.left
    ensures c.right == a.right || c.right == b.right
  {
    TimeInterval(Min(a.left, b.left), Max(a.right, b.right))
  }

  /** `Empty` holds no point at all. */
  lemma EmptyHoldsNoPoint(t: Ticks)
    ensures !PointIsWithin(Empty, t)
  {
  }

  /** `Empty` is the identity of `Coverage`, on either side. */
  lemma CoverageIdentity(i: TimeInterval)
    ensures Coverage(Empty, i) == i
    ensures Coverage(i, Empty) == i
  {
  }

  /** A point of either operand is a point of the coverage. */
  lemma CoverageKeepsPoints(a: TimeInterval, b: TimeInterval, t: Ticks)
    requires PointIsWithin(a, t) || PointIsWithin(b, t)
    ensures PointIsWithin(Coverage(a, b), t)
  {
  }
}

=== FILE: wrappers.dfy ===
/** Failure-compatible wrappers used to model the C# null references and
    exceptions of the store reader and writer. */
module Wrappers {

  /** `None` stands for a C# `null` argument or field. */
  datatype Option<+T> = None | Some(value: T)

  /** `Failure` stands for an exception thrown by an operation; the object
      whose operation threw is not used again in the model. */
  datatype Result<+T, +E> = Success(value: T) | Failure(error: E) {

    predicate IsFailure() {
      Failure?
    }

    function PropagateFailure<U>(): Result<U, E>
      requires Failure?
    {
      Failure(error)
    }

    function Extract(): T
      requires Success?
    {
      value
    }
  }
}
